=== FILE: README.md ===
# QuickChart viz adapter — a Dafny model

The QuickChart viz server is a tool adapter. It takes five rendering tools with string arguments:

- `render_chart`
- `render_graphviz`
- `render_mermaid`
- `render_qrcode`
- `render_wordcloud`

For each call it validates the arguments, builds one request to the remote QuickChart service, and writes the returned image at `join(chosen root, name)`. The name is either the caller's `save_as` or a generated one. It then reports the stored file with a virtual download path under `/files/`. A small HTTP front end serves those paths back from the primary output directory or the fallback one.

The model is functional Dafny. The surroundings every call depends on are parameters rather than effects:

- the JSON parser;
- the remote service, as a function from the issued request to its reply;
- the working directory;
- the set of creatable directories;
- the set of existing files;
- the formatted time stamp.

Modules follow the program's structure:

- `Wrappers` and `Attempts`: `Option`/`Result`, and the ordered "first root that works" search. The search is shared by the output-directory choice and the file route.
- `Text`: Python's `strip`, ASCII `lower`/`upper`, single-character `replace`, `split` and `join`.
- `Numbers`: Python's `int()` on a stripped string, and `str()` of an integer.
- `Errors`: the failure taxonomy and the exact failure texts.
- `Validation`: `_validate_dimension` and `_load_json`.
- `Paths`: `posixpath.join`, `abspath` and `relpath`. They are computed on component lists; `normpath` is the component loop `Resolve`.
- `Artifacts`: output directory, generated file names, download paths, the base64 flag, and `_format_binary_response`.
- `Serve`: the `/files/{filename:path}` route.
- `Tools`: the five tools. Each request builder's contract states when it validates, which error comes first, and what the request body holds.
- `ToolProperties`: output formats and file extensions, the request each tool issues, and whole invocations from arguments to a served download.

## Model

| member | source | states |
|---|---|---|
| Attempts.FirstSome | quickchart_viz_server.py:34-40 | the search yields nothing exactly when every candidate fails, and otherwise the earliest success |
| Text.Trim | quickchart_viz_server.py:75 | `strip()` is empty exactly for all-whitespace input; a non-empty result begins and ends with non-whitespace |
| Text.TrimSlice | quickchart_viz_server.py:75 | the stripped text is a contiguous slice of the input with only whitespace before and after it |
| Text.TrimPadded | quickchart_viz_server.py:196 | surrounding whitespace never changes what `strip()` returns for a word with non-space ends |
| Text.TrimIdempotent | quickchart_viz_server.py:196 | stripping twice is stripping once |
| Text.Lower | quickchart_viz_server.py:196 | `lower()` keeps the length and maps every character on its own |
| Text.LowerIdempotent | quickchart_viz_server.py:196 | lower-casing twice is lower-casing once |
| Text.LowerKeepsSpace | quickchart_viz_server.py:196 | lower-casing neither creates nor removes whitespace at any position |
| Text.Upper | quickchart_viz_server.py:294 | ASCII `upper()`: each character is mapped on its own by `UpperChar`, so the length is kept |
| Text.ReplaceChar | quickchart_viz_server.py:44 | each occurrence of the character is replaced, the rest is kept, and the old character is gone |
| Text.Split | quickchart_viz_server.py:96 | `split` returns at least one part, and no part contains the separator |
| Text.LastPart | quickchart_viz_server.py:96 | the last part is the longest separator-free suffix: it holds no separator, and a separator precedes it unless it is the whole input; input without a separator is its own last part |
| Text.LastPartUnique | quickchart_viz_server.py:96 | any separator-free suffix preceded by a separator (or equal to the input) is the last part |
| Text.SplitLast | quickchart_viz_server.py:96 | the last element of `split` is a suffix preceded by a separator, and is the whole input exactly for a single part |
| Text.LastPartOfSplit | quickchart_viz_server.py:96 | the last part is `s.split(sep)[-1]` |
| Text.LastPartAfter | quickchart_viz_server.py:96 | the last part of `a/t` is `t` whenever `t` holds no separator |
| Text.SplitJoin | quickchart_viz_server.py:57 | splitting the join of separator-free parts gives the parts back |
| Numbers.ParseInt | quickchart_viz_server.py:159 | `int()` accepts exactly an optional sign followed by a body of digits with single underscores between digits, holding at most 4300 digits; the value is the body's digits read in base 10, negated after a minus |
| Numbers.ParseIntPlus | quickchart_viz_server.py:159 | a leading `+` changes nothing |
| Numbers.ParseIntMinus | quickchart_viz_server.py:159 | a leading `-` is accepted exactly when the digits are, and negates the value |
| Numbers.ParseIntLeadingZero | quickchart_viz_server.py:159 | a leading zero keeps the value but counts against the digit limit |
| Numbers.ParseIntUnderscore | quickchart_viz_server.py:159 | an underscore between two digit groups changes nothing |
| Numbers.TooManyDigitsRejected | quickchart_viz_server.py:159 | more than 4300 plain digits are refused whatever their value |
| Numbers.Decimal | quickchart_viz_server.py:133 | `str()` of a natural number is its decimal digits without a leading zero, and its value is the number |
| Numbers.ParseIntRoundTrip | quickchart_viz_server.py:159 | `int()` of the text `str()` writes for an integer of at most 4300 digits is that integer |
| Errors.Message | quickchart_viz_server.py:76 | every failure text starts with the failure glyph and a space |
| Errors.NumberMessagesDistinct | quickchart_viz_server.py:161-164 | the "must be an integer" and "must be positive" texts never coincide |
| Validation.ValidateDimension | quickchart_viz_server.py:155-164 | blank is unset; an unparsable text is "not an integer"; a parsed integer at most 0 is "not positive"; otherwise that integer, always positive |
| Validation.DimensionOutcome | quickchart_viz_server.py:155-164 | a value is returned exactly for non-blank input and is read from the stripped text; the only errors are the two number errors |
| Validation.PositiveDimensionAccepted | quickchart_viz_server.py:158-162 | a positive integer of at most 4300 digits, written by `str()` and padded with whitespace, is accepted as that integer |
| Validation.NonPositiveDimensionRejected | quickchart_viz_server.py:158-161 | a non-positive integer of at most 4300 digits, however padded, is rejected as not positive |
| Validation.OverlongDimensionRejected | quickchart_viz_server.py:158-164 | a dimension of more than 4300 digits is reported as not an integer |
| Validation.LoadJson | quickchart_viz_server.py:74-81 | blank text is "required" without consulting the parser; otherwise the parser decides, and its diagnostic is kept in the error |
| Validation.BlankJsonIgnoresParser | quickchart_viz_server.py:75-76 | on blank text the outcome is the same for every parser |
| Paths.Join | quickchart_viz_server.py:97 | an absolute second part replaces the first; otherwise the first part is a prefix of the result |
| Paths.JoinAssoc | quickchart_viz_server.py:97 | joining a relative directory with a name and then onto the working directory is joining onto the working directory first |
| Paths.Resolve | main.py:29-30 | the component loop of `normpath` only ever yields clean components: none is empty, `.` or `..`, and none holds a slash |
| Paths.Components | main.py:29-30 | the normalised components of `abspath(p)` are clean |
| Paths.Abspath | main.py:29-30 | `abspath(p)` has the same normalised components as `p`, so it names the same location |
| Paths.ComponentsOfRender | quickchart_viz_server.py:53-54 | the path spelled by clean components normalises back to exactly those components |
| Paths.AbspathOfRender | main.py:29-30 | normalising an already normalised absolute path changes nothing |
| Paths.AbspathIdempotent | main.py:29-30 | `abspath` is idempotent |
| Paths.Relpath | quickchart_viz_server.py:57 | `relpath` fails exactly on an empty path |
| Paths.RelpathRoundTrip | quickchart_viz_server.py:53-57 | joining a normalised base with `relpath(target, base)` and normalising reaches `abspath(target)` |
| Artifacts.ChooseOutputDir | quickchart_viz_server.py:33-40 | the primary root wins when it can be created; otherwise the fallback is returned, created or not |
| Artifacts.SanitizePrefix | quickchart_viz_server.py:44 | spaces, slashes and backslashes become `_`, every other character is lower-cased, and the length is kept |
| Artifacts.SanitizeIdempotent | quickchart_viz_server.py:44 | sanitising a sanitised prefix changes nothing |
| Artifacts.StripLeadingDot | quickchart_viz_server.py:46-47 | at most one leading dot is removed from the extension |
| Artifacts.GenerateFilename | quickchart_viz_server.py:43-48 | the name is sanitised prefix, `_`, stamp, `.`, then the extension, or `png` when the extension is empty; its length adds up |
| Artifacts.GeneratedNameIsPlain | quickchart_viz_server.py:43-48 | with a separator-free stamp and extension, the generated name is one plain path component without backslashes |
| Artifacts.RelativeDownloadPath | quickchart_viz_server.py:51-60 | no download path exactly when the absolute root is not a string prefix of the absolute target; otherwise it starts with `/files/` and has no backslash |
| Artifacts.FileInDirRelpath | quickchart_viz_server.py:51-58 | a single file name written into the root has download path `/files/` followed by the name with every backslash turned into `/` |
| Artifacts.FileInDirDownloadPath | quickchart_viz_server.py:51-58 | a plain name without backslashes written into the root has download path `/files/<name>` |
| Artifacts.ComponentsOfFileInDir | quickchart_viz_server.py:97 | the normalised components of `join(dir, name)` are those of `dir` followed by the name |
| Artifacts.ResolveBase64Flag | quickchart_viz_server.py:104-107 | exactly "true" or "false" after strip and lower-casing decide; anything else keeps the default |
| Artifacts.Base64BlankUsesDefault | quickchart_viz_server.py:104-107 | a blank override keeps the default |
| Artifacts.Base64OverrideCaseInsensitive | quickchart_viz_server.py:104-107 | the override ignores letter case and surrounding whitespace |
| Artifacts.ArtifactName | quickchart_viz_server.py:96 | the file name is never empty: a blank `save_as` gives the generated name, which starts with the sanitised prefix; otherwise it is the stripped `save_as`, used as given |
| Artifacts.FormatBinaryResponse | quickchart_viz_server.py:84-120 | an empty payload yields the warning and writes nothing; otherwise the file is written at `join(chosen root, name)` with the explicit or generated name, and is reported with its download path, MIME type, summary and base64 decision |
| Artifacts.ExplicitAbsoluteNameEscapes | quickchart_viz_server.py:96-97 | an absolute stripped `save_as` replaces the chosen root: the file is written at exactly that path |
| Artifacts.EtcPasswdOutsideRoots | quickchart_viz_server.py:96-97 | `save_as="/etc/passwd"` is written at `/etc/passwd`, below neither default root |
| Artifacts.ComponentsOfParentName | quickchart_viz_server.py:97 | the normalised components of `join(dir, "../" + name)` are those of dir's parent followed by the name |
| Artifacts.ExplicitParentNameEscapes | quickchart_viz_server.py:96-97 | a stripped `save_as` of `../name` is written in the parent of the chosen root, so it is not below that root unless the root is `/` |
| Serve.Candidate | main.py:29-31 | a root yields a file exactly when `abspath(join(abspath(root), filename))` starts with the absolute root and exists, and then yields that target |
| Serve.ServeFile | main.py:26-33 | 404 exactly when no root yields a file; otherwise the file from the earliest root that yields one |
| Serve.PrimaryBeforeFallback | main.py:28 | the primary root shadows the fallback; the fallback is consulted only when the primary yields nothing |
| Serve.AbsoluteRequest | main.py:30-31 | an absolute request ignores the root it is joined to, and is served only when its own absolute form starts with that root |
| Serve.DownloadPathServesFile | main.py:26-33 | a download path reported for an existing file whose absolute path holds no backslash is served back as that file, when the directory it was computed against is the first root |
| Serve.BackslashNameNotServed | quickchart_viz_server.py:57 | as written, a file `dir/a\b` is reported as `/files/a/b`, and that request does not find it: with only the stored file present the route answers 404 |
| Serve.StoredArtifactServed | main.py:26-33 | a plain name stored in the first root is served by both the as-written and the corrected route, and its download path is `/files/<name>` |
| Serve.EmptyRootYieldsOnlyAdded | main.py:29-31 | a root with no file below it yields, for a plain name, at most the one file just added, under both lookups |
| Serve.FallbackArtifactServed | main.py:28-31 | a plain name stored in the fallback, while the primary holds no file, has download path `/files/<name>` and is served back by both routes, primary first |
| Serve.SiblingPrefixServed | main.py:31 | as written: a request climbing from root `p/d` into the sibling `p/<d+ext>` is served |
| Serve.StrictCandidate | main.py:29-31 | corrected: a root yields a file exactly when the target's components strictly extend the root's and the target exists; the file lies strictly below the root |
| Serve.ServeFileStrict | main.py:26-33 | corrected route: 404 exactly when no root yields a file; a served file lies strictly below some root |
| Serve.StrictRejectsSibling | main.py:31 | corrected: the same sibling request is refused whatever files exist |
| Serve.FallbackSiblingServed | main.py:28-31 | as written, through the fallback: when the primary yields nothing, a request climbing from the fallback `p/d` into the sibling `p/<d+ext>` is served |
| Serve.PrimaryRootSegments | main.py:18 | the default primary root `/app/output/quickchart` is the root `app/output/quickchart` with the sibling `app/output/quickchart2` next to it |
| Serve.FallbackRootSegments | main.py:19 | the default fallback root `/tmp/quickchart` is the root `tmp/quickchart` with the sibling `tmp/quickchart2` next to it |
| Serve.ClimbToSibling | main.py:30 | normalising `join(p/d, "../s/f")` gives the components `p, s, f` |
| Tools.NormalizeFormat | quickchart_viz_server.py:196 | a blank format is `png`; otherwise it is the stripped, lower-cased argument; either way non-empty with non-space ends and no upper-case letter |
| Tools.MimeFor | quickchart_viz_server.py:203 | the MIME type is `image/<fmt>` when the format is on the tool's allowlist and `application/octet-stream` otherwise |
| Tools.WithInt | quickchart_viz_server.py:190-193 | a present value adds exactly its key, holding the integer, and nothing else changes |
| Tools.WithText | quickchart_viz_server.py:194-195 | a non-blank text adds exactly its key, holding the stripped text, and nothing else changes |
| Tools.SentDimension | quickchart_viz_server.py:190-193 | a body entry holding the validated dimension is present exactly when the text was given, and is the positive integer its stripped text spells |
| Tools.ChartFields | quickchart_viz_server.py:189-197 | the chart body holds the config and the normalised format, each dimension exactly when present, and the stripped background exactly when given; no other keys |
| Tools.ChartBody | quickchart_viz_server.py:178-197 | a chart request validates exactly when the config is present and parses and both dimensions are blank or positive; errors come config first, then width, then height; the body holds what was validated |
| Tools.DiagramBody | quickchart_viz_server.py:223-229 | a diagram request fails exactly on a blank definition, with the tool's "required" error; otherwise the definition is sent unstripped, the option stripped and only when given, and the format |
| Tools.QrFields | quickchart_viz_server.py:287-294 | the QR query holds the text, the size exactly when present, and the upper-cased stripped level exactly when given |
| Tools.QrParams | quickchart_viz_server.py:285-294 | a QR request validates exactly when the text is not blank and the size is blank or valid, and a blank text is reported first; the query holds the stripped text, the size when given, and the level when given |
| Tools.WordCloudFields | quickchart_viz_server.py:325-338 | the word cloud body holds the weights, the normalised format, and each dimension exactly when present |
| Tools.WordCloudBody | quickchart_viz_server.py:319-338 | blank words fail with "words JSON is required" before any parse; then the parser's diagnostic; then width, then height; on success the body holds what was validated |
| Tools.BuildJob | quickchart_viz_server.py:199-203 | validation succeeds exactly when the body does; QR is the only GET; endpoint and noun follow the tool; the MIME type is the tool's allowlist applied to its format |
| Tools.ReplyReport | quickchart_viz_server.py:199-211 | only a delivery reaches the store; status and transport failures are relayed as the matching errors |
| Tools.Invoke | quickchart_viz_server.py:199-211 | invalid input never reaches the remote service; a status or transport failure becomes the matching error; a delivery is handed to `_format_binary_response` with the plan's MIME type, the tool's summary and prefix, and the caller's name and base64 flag |
| ToolProperties.NormalizeFormatIdempotent | quickchart_viz_server.py:196 | normalising a normalised format changes nothing |
| ToolProperties.NormalizeFormatPadded | quickchart_viz_server.py:196 | the format ignores surrounding whitespace and letter case |
| ToolProperties.BlankFormatIsPng | quickchart_viz_server.py:196-203 | a blank format renders PNG reported as `image/png`, for every tool |
| ToolProperties.GraphvizSvgMime | quickchart_viz_server.py:234 | Graphviz reports SVG output as `image/svg` |
| ToolProperties.ChartSvgIsGeneric | quickchart_viz_server.py:203 | the chart tool reports SVG output as `application/octet-stream` |
| ToolProperties.MimeExtension | quickchart_viz_server.py:96 | a generated file takes the format itself as extension when allowed, otherwise `octet-stream` |
| ToolProperties.OctetExtension | quickchart_viz_server.py:96 | the generic MIME type yields the extension `octet-stream` |
| ToolProperties.ExtensionIsPlain | quickchart_viz_server.py:96 | the extension taken from any tool's MIME type holds no backslash |
| ToolProperties.AllowedFormatsArePlain | quickchart_viz_server.py:203 | every allowlisted format is a plain word without separators |
| ToolProperties.GraphvizRequest | quickchart_viz_server.py:214-231 | Graphviz posts to `/graphviz` with the graph under `graph` and the layout under `layout` exactly when given |
| ToolProperties.MermaidRequest | quickchart_viz_server.py:245-262 | Mermaid posts to `/mermaid` with the definition under `chart` and the theme under `theme` exactly when given |
| ToolProperties.QrRequest | quickchart_viz_server.py:296-301 | QR is a GET on `/qr` reported as `image/png` |
| ToolProperties.InvalidRequestIgnoresRemote | quickchart_viz_server.py:178-187 | a request that fails validation has the same report whatever the remote service would do, and issues no call |
| ToolProperties.EmptyDeliveryWarns | quickchart_viz_server.py:92-93 | a delivery of zero bytes yields only the empty-payload warning: nothing saved, no download path |
| ToolProperties.NonEmptyDeliveryIsSaved | quickchart_viz_server.py:95-100 | a non-empty delivery is always saved, with exactly the delivered bytes and the MIME type of the tool's format |
| ToolProperties.DeliveredReport | quickchart_viz_server.py:95-102 | a delivered payload without an explicit name is stored in a creatable primary root under the generated name, with its download path |
| ToolProperties.DeliveredArtifactIsServed | quickchart_viz_server.py:95-102 | for a payload delivered without an explicit name and stored in a creatable primary root, the reported download path is served back as the stored file by both routes |
| ToolProperties.DeliveredFallbackReport | quickchart_viz_server.py:34-40 | when the primary root cannot be created, a payload delivered without an explicit name is stored in the fallback under the generated name, with its download path |
| ToolProperties.DeliveredFallbackArtifactIsServed | quickchart_viz_server.py:95-102 | for a payload stored under a generated name in the fallback, while the primary holds no file, the reported download path is served back as the stored file by both routes |

## Left out

- HTTP transport: request headers, the API key, the base URL, the timeout, and how `httpx` classifies replies. The remote service is a function whose reply is already a delivery, a status failure or a transport failure.
- The MCP framework, the stdio and HTTP server set-up, the `/health` route and logging are left out. So is reading settings from the environment; the roots and the base64 default are fields of `Store`.
- Writing files and creating directories: creatable directories and existing files are sets. `FileResponse` on a directory, and failures raised by `open` or `makedirs` after a directory is chosen, are not modelled.
- JSON grammar: the parser is a parameter. Its diagnostic stands for the exception text.
- Validation.Json: numbers are integers only, so a parser cannot return `1.5` or `1e3`. Documents are only carried into request bodies and never inspected, so no property depends on this.
- Base64 encoding: the report records only whether the payload is embedded.
- The report's text layout and its time stamps. The file-name stamp is a parameter.
- Text.Lower: only ASCII letters change case. Python's full Unicode case mapping is not modelled.
- Text.Upper: only ASCII letters change case. Python's `upper()` can also change the length (`ß` becomes `SS`), which affects the QR error-correction level sent at quickchart_viz_server.py:294.
- Numbers.ParseInt: only ASCII digits are accepted. Python also accepts other Unicode decimal digits. The digit limit is fixed at the interpreter default of 4300; `sys.set_int_max_str_digits` and `PYTHONINTMAXSTRDIGITS` can change it, and older interpreters have none.
- Numbers.ParseIntRoundTrip: stated only for integers of at most 4300 digits, because `str()` itself raises beyond the limit. The model's `str()` is used only for HTTP status codes.
- Serve.DownloadPathServesFile: two hypotheses are needed.
  - The stored path must hold no backslash. quickchart_viz_server.py:57 turns every backslash of the relative path into `/`, so an explicit `save_as="a\b"` is reported as `/files/a/b`, and the route at main.py:29-31 then looks for `dir/a/b`. That is a 404, or a different file. `Serve.BackslashNameNotServed` states this.
  - The directory the path was computed against must be the first root. The route tries the primary root first, so a file stored in the fallback is shadowed by any primary file at the same relative path. `Serve.FallbackArtifactServed` covers the fallback when the primary holds no file.
  - The hint is not percent-encoded. The model takes the text after `/files/` as the route's filename verbatim. An HTTP client would cut a name at `?` or `#` and decode `%xx`, so a name holding these characters may not round-trip. That is not modelled.
- ToolProperties.DeliveredArtifactIsServed: only generated names are covered, here and in `ToolProperties.DeliveredFallbackArtifactIsServed`. An explicit `save_as` may escape the roots or hold a backslash (see the two lines above and below), so no general round trip holds for it.
- Artifacts.ArtifactName: an explicit `save_as` is used unsanitised, as at quickchart_viz_server.py:96. An absolute name or one climbing with `..` is written outside both roots, and the report may then carry no download path. The model keeps this behaviour; `Artifacts.ExplicitAbsoluteNameEscapes` and `Artifacts.ExplicitParentNameEscapes` state it. Whether callers are meant to pick arbitrary paths is a design question, so it is not listed as a finding.
- Paths.Components: a path with exactly two leading slashes is treated like one with a single slash. POSIX `normpath` keeps "//" as-is, and the default roots never start with it.
- Errors.Message: exception texts from the transport are carried as an opaque detail string.
- Body keys are a finite map, so the insertion order of the request dictionaries is not modelled.
- The check at quickchart_viz_server.py:55 is the same string-prefix test as the file route's. It is modelled as written in `Artifacts.RelativeDownloadPath`; the finding below concerns the route.

## Findings

| source | as written | input that shows it | evidently intended | confidence | as-written member | corrected member |
|---|---|---|---|---|---|---|
| main.py:31 | a target is served when its absolute path string starts with the absolute root string | primary root `/app/output/quickchart`, request `../quickchart2/secret` with `/app/output/quickchart2/secret` existing: the file is served from outside both roots | serve only targets inside a root, component-wise | not executed | Serve.SiblingPrefixServed | Serve.StrictRejectsSibling |

`Serve.SiblingPrefixServed` proves the as-written behaviour for the first root `p/d` and any sibling directory `p/<d+ext>`. `Serve.PrimaryRootSegments` shows that the default primary root `/app/output/quickchart` has this shape, with `p = [app, output]` and `d = quickchart`. `Serve.FallbackSiblingServed` covers the fallback root: when the primary yields nothing for the request, the sibling of the fallback is served. `Serve.FallbackRootSegments` shows that the default fallback `/tmp/quickchart` has the shape too, with `p = [tmp]`.

The corrected route is `Serve.ServeFileStrict`. It keeps a target only when the root's components are a proper prefix of the target's. `Serve.StrictRejectsSibling` proves it refuses the sibling request. `Serve.StoredArtifactServed` and `ToolProperties.DeliveredArtifactIsServed` prove it still serves every artifact the tools store under a generated name in a creatable primary root. `Serve.FallbackArtifactServed` and `ToolProperties.DeliveredFallbackArtifactIsServed` prove the same for an artifact stored in the fallback while the primary holds no file.

=== FILE: artifacts.dfy ===
/** The artifact store: where a rendered payload is written, under which
    name, which virtual download path is reported for it, and whether the
    report embeds the payload as base64. */
module Artifacts {
  import opened Wrappers
  import opened Text
  import opened Attempts
  import opened Errors
  import opened Paths

  newtype byte = x: int | 0 <= x < 256

  /** Default primary and fallback output roots. */
  const DefaultOutputDir: string := "/app/output/quickchart"
  const DefaultFallbackDir: string := "/tmp/quickchart"

  /** The virtual prefix under which stored files are served. */
  const FilesPrefix: string := "/files/"

  /** Everything the store needs from its surroundings for one call: the two
      configured roots, which directories can be created, the working
      directory, the formatted UTC time of the call and the base64 default. */
  datatype Store = Store(
    primary: string,
    fallback: string,
    creatable: set<string>,
    cwd: AbsolutePath,
    stamp: string,
    defaultBase64: bool)

  /** What one tool invocation reports back: a failure, a warning about an
      empty payload (nothing written), or a stored artifact. */
  datatype Report =
    | Failed(error: ToolError)
    | EmptyPayload(summary: string)
    | Saved(path: string, download: Option<string>, mime: string, content: seq<byte>,
            base64: bool, summary: string)

  /** `_ensure_output_dir`: the first root that can be created wins; if neither
      can, the fallback is still returned. */
  function ChooseOutputDir(primary: string, fallback: string, creatable: set<string>): (d: string)
    ensures primary in creatable ==> d == primary
    ensures primary !in creatable ==> d == fallback
  {
    FirstSome([primary, fallback], (dir: string) => if dir in creatable then Some(dir) else None)
      .GetOr(fallback)
  }

  predicate IsPathChar(c: char) {
    c == ' ' || c == '/' || c == '\\'
  }

  /** The filename prefix: spaces and both path separators become "_", then lower case. */
  function SanitizePrefix(prefix: string): (r: string)
    ensures |r| == |prefix|
    ensures forall i :: 0 <= i < |r| ==> !IsPathChar(r[i]) && !IsUpper(r[i])
    ensures forall i :: 0 <= i < |prefix| ==>
              r[i] == if IsPathChar(prefix[i]) then '_' else LowerChar(prefix[i])
  {
    Lower(ReplaceChar(ReplaceChar(ReplaceChar(prefix, ' ', '_'), '/', '_'), '\\', '_'))
  }

  /** Sanitising a sanitised prefix changes nothing. */
  lemma SanitizeIdempotent(prefix: string)
    ensures SanitizePrefix(SanitizePrefix(prefix)) == SanitizePrefix(prefix)
  {
    var r := SanitizePrefix(prefix);
    assert forall i :: 0 <= i < |r| ==> SanitizePrefix(r)[i] == r[i];
  }

  /** The extension with at most one leading dot removed. */
  function StripLeadingDot(extension: string): (e: string)
    ensures extension == e || extension == "." + e
    ensures |extension| > 0 && extension[0] == '.' ==> |e| == |extension| - 1
  {
    if |extension| > 0 && extension[0] == '.' then extension[1..] else extension
  }

  /** `_generate_filename`: `<sanitised prefix>_<stamp>.<extension or png>`. */
  function GenerateFilename(prefix: string, extension: string, stamp: string): (name: string)
    ensures |name| == |prefix| + |stamp| + 2 + (if StripLeadingDot(extension) == "" then 3 else |StripLeadingDot(extension)|)
    ensures name[..|prefix|] == SanitizePrefix(prefix)
    ensures forall i :: 0 <= i < |prefix| ==> !IsPathChar(name[i]) && !IsUpper(name[i])
    ensures name[|prefix|] == '_' && name[|prefix| + 1..|prefix| + 1 + |stamp|] == stamp
    ensures name[|prefix| + 1 + |stamp|] == '.'
    ensures StripLeadingDot(extension) == "" ==> EndsWith(name, ".png")
    ensures StripLeadingDot(extension) != "" ==> EndsWith(name, "." + StripLeadingDot(extension))
  {
    var e := StripLeadingDot(extension);
    SanitizePrefix(prefix) + "_" + stamp + "." + (if e == "" then "png" else e)
  }

  /** A generated name is a single plain path component (no separator of
      either kind) as long as the stamp and the extension have none. */
  lemma GeneratedNameIsPlain(prefix: string, extension: string, stamp: string)
    requires Sep !in stamp && '\\' !in stamp
    requires Sep !in extension && '\\' !in extension
    ensures Clean([GenerateFilename(prefix, extension, stamp)])
    ensures '\\' !in GenerateFilename(prefix, extension, stamp)
  {
    var e := StripLeadingDot(extension);
    var tail := if e == "" then "png" else e;
    var name := GenerateFilename(prefix, extension, stamp);
    assert name == SanitizePrefix(prefix) + "_" + stamp + "." + tail;
    assert Sep !in tail && '\\' !in tail by {
      if e != "" && e != extension {
        assert forall k :: 0 <= k < |e| ==> e[k] == extension[k + 1];
      }
    }
    forall i | 0 <= i < |name|
      ensures name[i] != Sep && name[i] != '\\'
    {
      var p := |prefix|;
      if i < p {
        assert !IsPathChar(name[i]);
      } else if i == p || i == p + 1 + |stamp| {
      } else if i < p + 1 + |stamp| {
        assert name[i] == stamp[i - p - 1];
      } else {
        assert name[i] == tail[i - p - 2 - |stamp|];
      }
    }
    assert name != "" && name != "." && name != ".." by {
      assert |tail| > 0 && |name| >= 3;
    }
    var single := [name];
    assert single[0] == name;
  }

  /** `_relative_download_path(path, root)`: None unless the absolute target
      starts (as a string) with the absolute root; otherwise "/files/" and the
      relative path with backslashes turned into slashes. An empty root means
      the configured output directory. */
  function RelativeDownloadPath(path: string, root: string, outputDir: string, cwd: AbsolutePath): (r: Option<string>)
    ensures r.None? <==> !(Abspath(if root == "" then outputDir else root, cwd) <= Abspath(path, cwd))
    ensures r.Some? ==> FilesPrefix <= r.value && '\\' !in r.value
  {
    var base := Abspath(if root == "" then outputDir else root, cwd);
    var target := Abspath(path, cwd);
    if !(base <= target) then None
    else
      match Relpath(target, base, cwd)
      case None => None
      case Some(rel) => Some(FilesPrefix + ReplaceChar(rel, '\\', '/'))
  }

  /** Every component of the absolute form of `join(dir, name)`, for a single
      clean file name, is dir's components followed by the name. */
  lemma ComponentsOfFileInDir(dir: string, name: string, cwd: AbsolutePath)
    requires dir != "" && Clean([name])
    ensures Components(Join(dir, name), cwd) == Components(dir, cwd) + [name]
  {
    var d := if IsAbs(dir) then dir else Join(cwd, dir);
    assert [name][0] == name;
    JoinAssoc(cwd, dir, name);
    assert Components(Join(dir, name), cwd) == Resolve([], Split(Join(d, name), Sep));
    SplitFileInDir(d, name);
  }

  /** Splitting and resolving `join(d, name)` for an absolute directory string. */
  lemma SplitFileInDir(d: string, name: string)
    requires IsAbs(d) && Clean([name])
    ensures Resolve([], Split(Join(d, name), Sep)) == Resolve([], Split(d, Sep)) + [name]
  {
    assert [name][0] == name;
    assert name[0] in name;
    if d[|d| - 1] == Sep {
      var front := d[..|d| - 1];
      assert d == front + [Sep];
      assert Join(d, name) == front + [Sep] + name;
      ResolveDirName(front, name);
      ResolveTrailingSep(front);
    } else {
      assert Join(d, name) == d + [Sep] + name;
      ResolveDirName(d, name);
    }
  }

  lemma ResolveDirName(front: string, name: string)
    requires Clean([name])
    ensures Resolve([], Split(front + [Sep] + name, Sep)) == Resolve([], Split(front, Sep)) + [name]
  {
    assert [name][0] == name;
    SplitNoSep(name, Sep);
    SplitAppend(front, name, Sep);
    var r := Resolve([], Split(front, Sep));
    ResolveAppend([], Split(front, Sep), [name]);
    assert Resolve(r, [name]) == Resolve(r + [name], []);
  }

  lemma ResolveTrailingSep(front: string)
    ensures Resolve([], Split(front + [Sep], Sep)) == Resolve([], Split(front, Sep))
  {
    SplitAppend(front, "", Sep);
    assert front + [Sep] + "" == front + [Sep];
    var r := Resolve([], Split(front, Sep));
    ResolveAppend([], Split(front, Sep), [""]);
    assert Resolve(r, [""]) == Resolve(r, []);
  }

  /** `join(dir, "../" + name)` lands beside the directory, not inside it:
      its components are dir's parent's components followed by the name. */
  lemma ComponentsOfParentName(dir: string, name: string, cwd: AbsolutePath)
    requires dir != "" && Clean([name])
    ensures var bs := Components(dir, cwd);
            Components(Join(dir, "../" + name), cwd) == (if bs == [] then [] else bs[..|bs| - 1]) + [name]
  {
    var d := if IsAbs(dir) then dir else Join(cwd, dir);
    JoinAssoc(cwd, dir, "../" + name);
    assert Components(Join(dir, "../" + name), cwd) == Resolve([], Split(Join(d, "../" + name), Sep));
    SplitParentInDir(d, name);
  }

  lemma SplitParentInDir(d: string, name: string)
    requires IsAbs(d) && Clean([name])
    ensures var r := Resolve([], Split(d, Sep));
            Resolve([], Split(Join(d, "../" + name), Sep)) == (if r == [] then [] else r[..|r| - 1]) + [name]
  {
    if d[|d| - 1] == Sep {
      var front := d[..|d| - 1];
      assert d == front + [Sep];
      assert Join(d, "../" + name) == front + [Sep] + ("../" + name);
      ResolveTrailingSep(front);
      ResolveParentName(front, name);
    } else {
      assert Join(d, "../" + name) == d + [Sep] + ("../" + name);
      ResolveParentName(d, name);
    }
  }

  lemma ResolveParentName(front: string, name: string)
    requires Clean([name])
    ensures var r := Resolve([], Split(front, Sep));
            Resolve([], Split(front + [Sep] + ("../" + name), Sep)) == (if r == [] then [] else r[..|r| - 1]) + [name]
  {
    assert [name][0] == name;
    var tail := "../" + name;
    assert tail == ".." + [Sep] + name;
    SplitNoSep("..", Sep);
    SplitNoSep(name, Sep);
    SplitAppend("..", name, Sep);
    assert Split(tail, Sep) == ["..", name];
    SplitAppend(front, tail, Sep);
    var comps := Split(front, Sep);
    assert Split(front + [Sep] + tail, Sep) == comps + ["..", name];
    var r := Resolve([], comps);
    ResolveAppend([], comps, ["..", name]);
    var up := if r == [] then [] else r[..|r| - 1];
    assert Resolve(r, ["..", name]) == Resolve(up, [name]);
    assert Resolve(up, [name]) == Resolve(up + [name], []);
  }

  /** The download path of a plain file name written directly into the
      directory is "/files/" followed by that name. */
  lemma FileInDirDownloadPath(dir: string, name: string, outputDir: string, cwd: AbsolutePath)
    requires dir != "" && Clean([name]) && '\\' !in name
    ensures RelativeDownloadPath(Join(dir, name), dir, outputDir, cwd) == Some(FilesPrefix + name)
  {
    FileInDirRelpath(dir, name, outputDir, cwd);
    ReplaceAbsent(name, '\\', '/');
  }

  /** For a single file name written into the directory, the download path is
      "/files/" followed by the name with every backslash turned into "/". */
  lemma FileInDirRelpath(dir: string, name: string, outputDir: string, cwd: AbsolutePath)
    requires dir != "" && Clean([name])
    ensures RelativeDownloadPath(Join(dir, name), dir, outputDir, cwd) == Some(FilesPrefix + ReplaceChar(name, '\\', '/'))
  {
    var bs := Components(dir, cwd);
    ComponentsOfFileInDir(dir, name, cwd);
    var ps := bs + [name];
    assert Clean(ps);
    var base := Render(bs);
    var target := Render(ps);
    assert base <= target by {
      if bs != [] {
        JoinWithAppend(bs, [name], Sep);
      }
    }
    AbspathOfRender(bs, cwd);
    AbspathOfRender(ps, cwd);
    PartsOfRender(bs);
    PartsOfRender(ps);
    assert CommonPrefixLen(bs, ps) == |bs|;
    assert RelativeParts(bs, ps) == [name];
  }

  /** The include-base64 override: exactly "true" or "false" after strip and
      lower-casing decide; anything else keeps the process default. */
  function ResolveBase64Flag(raw: string, default: bool): (flag: bool)
    ensures Lower(Trim(raw)) == "true" ==> flag
    ensures Lower(Trim(raw)) == "false" ==> !flag
    ensures Lower(Trim(raw)) != "true" && Lower(Trim(raw)) != "false" ==> flag == default
  {
    var choice := Lower(Trim(raw));
    if choice == "true" || choice == "false" then choice == "true" else default
  }

  /** A blank override, or any word other than true/false, leaves the default in force. */
  lemma Base64BlankUsesDefault(raw: string, default: bool)
    requires IsBlank(raw)
    ensures ResolveBase64Flag(raw, default) == default
  {
  }

  /** The override is case-insensitive and ignores surrounding whitespace. */
  lemma {:induction false} Base64OverrideCaseInsensitive(pre: string, word: string, post: string, default: bool)
    requires AllSpace(pre) && AllSpace(post)
    requires Lower(word) == "true" || Lower(word) == "false"
    ensures ResolveBase64Flag(pre + word + post, default) == (Lower(word) == "true")
  {
    SpaceIsNotPrintable(Lower(word)[0]);
    SpaceIsNotPrintable(Lower(word)[|word| - 1]);
    LowerKeepsSpace(word);
    TrimPadded(pre, word, post);
  }

  /** The file name used for a payload: the stripped explicit name, or a generated one. */
  function ArtifactName(mime: string, prefix: string, saveAs: string, stamp: string): (r: string)
    ensures r != []
    ensures IsBlank(saveAs) ==> r == GenerateFilename(prefix, LastPart(mime, '/'), stamp)
    ensures IsBlank(saveAs) ==> r[..|prefix|] == SanitizePrefix(prefix)
    ensures !IsBlank(saveAs) ==> r == Trim(saveAs) && !IsSpace(r[0]) && !IsSpace(r[|r| - 1])
  {
    if IsBlank(saveAs) then GenerateFilename(prefix, LastPart(mime, '/'), stamp) else Trim(saveAs)
  }

  /** `_format_binary_response`: an empty payload short-circuits into a warning
      with nothing written; otherwise the payload is stored under the chosen
      directory and reported with its download path and the base64 decision. */
  function FormatBinaryResponse(content: seq<byte>, mime: string, summary: string, prefix: string,
                                saveAs: string, includeBase64: string, store: Store): (r: Report)
    ensures |content| == 0 <==> r.EmptyPayload?
    ensures r.EmptyPayload? ==> r.summary == summary
    ensures r.Saved? ==> r.content == content && r.mime == mime && r.summary == summary
    ensures r.Saved? ==>
              var dir := ChooseOutputDir(store.primary, store.fallback, store.creatable);
              && (dir == store.primary || dir == store.fallback)
              && r.path == Join(dir, ArtifactName(mime, prefix, saveAs, store.stamp))
              && r.download == RelativeDownloadPath(r.path, dir, store.primary, store.cwd)
    ensures r.Saved? && !IsBlank(saveAs) ==> EndsWith(r.path, Trim(saveAs))
    ensures r.Saved? ==> r.base64 == ResolveBase64Flag(includeBase64, store.defaultBase64)
    ensures r.Saved? && r.download.Some? ==> FilesPrefix <= r.download.value
    ensures !r.Failed?
  {
    if |content| == 0 then EmptyPayload(summary)
    else
      var dir := ChooseOutputDir(store.primary, store.fallback, store.creatable);
      var path := Join(dir, ArtifactName(mime, prefix, saveAs, store.stamp));
      Saved(path, RelativeDownloadPath(path, dir, store.primary, store.cwd), mime, content,
            ResolveBase64Flag(includeBase64, store.defaultBase64), summary)
  }

  /** An explicit name is used as given: an absolute `save_as` replaces the
      chosen directory altogether, so the file lands wherever it names. */
  lemma ExplicitAbsoluteNameEscapes(content: seq<byte>, mime: string, summary: string, prefix: string,
                                    saveAs: string, includeBase64: string, store: Store)
    requires |content| > 0 && !IsBlank(saveAs) && IsAbs(Trim(saveAs))
    ensures FormatBinaryResponse(content, mime, summary, prefix, saveAs, includeBase64, store).Saved?
    ensures FormatBinaryResponse(content, mime, summary, prefix, saveAs, includeBase64, store).path == Trim(saveAs)
  {
  }

  /** The concrete case: `save_as="/etc/passwd"` writes `/etc/passwd`, outside both roots. */
  lemma EtcPasswdOutsideRoots(content: seq<byte>, mime: string, summary: string, prefix: string,
                              includeBase64: string, store: Store)
    requires |content| > 0
    requires store.primary == "/app/output/quickchart" && store.fallback == "/tmp/quickchart"
    ensures var r := FormatBinaryResponse(content, mime, summary, prefix, "/etc/passwd", includeBase64, store);
            && r.Saved? && r.path == "/etc/passwd"
            && !(store.primary + "/" <= r.path) && !(store.fallback + "/" <= r.path)
  {
    var saveAs := "/etc/passwd";
    NotUnder(store.primary, saveAs);
    NotUnder(store.fallback, saveAs);
    PlainIsOwnTrim(saveAs);
    ExplicitAbsoluteNameEscapes(content, mime, summary, prefix, saveAs, includeBase64, store);
  }

  /** Two absolute paths whose first components start differently are not nested. */
  lemma NotUnder(root: string, path: string)
    requires |root| > 1 && |path| > 1 && root[1] != path[1]
    ensures !(root + "/" <= path)
  {
    assert (root + "/")[1] == root[1];
  }

  /** A name made of printable characters is its own strip, and not blank. */
  lemma PlainIsOwnTrim(s: string)
    requires s != [] && IsPrintableAscii(s[0]) && IsPrintableAscii(s[|s| - 1])
    ensures !IsBlank(s) && Trim(s) == s
  {
    SpaceIsNotPrintable(s[0]);
    SpaceIsNotPrintable(s[|s| - 1]);
    TrimOfStripped(s);
  }

  /** An explicit `save_as` of the form `../name` is written beside the chosen
      directory, in its parent: unless the directory is the root itself, the
      stored path is not below it. */
  lemma ExplicitParentNameEscapes(content: seq<byte>, mime: string, summary: string, prefix: string,
                                  saveAs: string, includeBase64: string, store: Store, name: string)
    requires |content| > 0 && store.primary != "" && store.fallback != ""
    requires Trim(saveAs) == "../" + name && Clean([name])
    ensures var r := FormatBinaryResponse(content, mime, summary, prefix, saveAs, includeBase64, store);
            var bs := Components(ChooseOutputDir(store.primary, store.fallback, store.creatable), store.cwd);
            && r.Saved?
            && Components(r.path, store.cwd) == (if bs == [] then [] else bs[..|bs| - 1]) + [name]
            && (bs != [] ==> |Components(r.path, store.cwd)| == |bs|)
  {
    var dir := ChooseOutputDir(store.primary, store.fallback, store.creatable);
    ComponentsOfParentName(dir, name, store.cwd);
    assert !IsBlank(saveAs);
    assert ArtifactName(mime, prefix, saveAs, store.stamp) == "../" + name;
    var r := FormatBinaryResponse(content, mime, summary, prefix, saveAs, includeBase64, store);
    assert r.Saved? && r.path == Join(dir, "../" + name);
  }
}

=== FILE: errors.dfy ===
/** The failure taxonomy of the adapter. Every failure reaches the invoking
    agent as one line of text that starts with the failure glyph (U+274C). */
module Errors {
  import opened Numbers

  datatype ToolError =
    | MissingInput(what: string)                  // a required field was blank
    | InvalidJson(field: string, diagnostic: string)
    | InvalidNumber(field: string)                // not an integer
    | NonPositiveNumber(field: string)            // an integer <= 0
    | RemoteStatus(status: int, expected: string) // non-2xx reply while producing `expected`
    | RemoteTransport(detail: string)             // network, timeout or connection failure

  const Glyph: char := '\U{274C}'

  /** The text shown to the agent for a failure. */
  function Message(e: ToolError): (m: string)
    ensures |m| > 2 && m[0] == Glyph && m[1] == ' '
  {
    match e
    case MissingInput(what) => [Glyph] + " Error: " + what + " is required."
    case InvalidJson(field, diagnostic) => [Glyph] + " Error: Invalid " + field + " JSON (" + diagnostic + ")."
    case InvalidNumber(field) => [Glyph] + " Error: " + field + " must be an integer."
    case NonPositiveNumber(field) => [Glyph] + " Error: " + field + " must be positive."
    case RemoteStatus(status, expected) =>
      [Glyph] + " API Error: " + IntToString(status) + " while generating " + expected + "."
    case RemoteTransport(detail) => [Glyph] + " Error: " + detail
  }

  /** The "not an integer" and "not positive" messages can never be confused,
      whatever the two labels are. */
  lemma NumberMessagesDistinct(a: string, b: string)
    ensures Message(InvalidNumber(a)) != Message(NonPositiveNumber(b))
  {
    var m1 := Message(InvalidNumber(a));
    var m2 := Message(NonPositiveNumber(b));
    assert m1[|m1| - 2] == 'r';
    assert m2[|m2| - 2] == 'e';
  }
}

=== FILE: numbers.dfy ===
/** Decimal integers as the adapter reads and writes them: Python's `int()`
    on a stripped string, and `str()` of an integer (used in error messages). */
module Numbers {
  import opened Wrappers

  predicate IsDigit(c: char) {
    '0' <= c <= '9'
  }

  predicate AllDigits(s: string) {
    forall i :: 0 <= i < |s| ==> IsDigit(s[i])
  }

  function DigitValue(c: char): (d: nat)
    requires IsDigit(c)
    ensures d < 10
  {
    c as int - '0' as int
  }

  function DigitChar(d: nat): (c: char)
    requires d < 10
    ensures IsDigit(c) && DigitValue(c) == d
  {
    ('0' as int + d) as char
  }

  /** The value of a string of decimal digits, most significant first. */
  function DigitsValue(s: string): nat
    requires AllDigits(s)
  {
    if s == [] then 0 else DigitsValue(s[..|s| - 1]) * 10 + DigitValue(s[|s| - 1])
  }

  /** The digit body Python's `int()` accepts: digits, with single underscores
      allowed only between two digits. */
  predicate WellGrouped(s: string) {
    && |s| > 0
    && IsDigit(s[0])
    && DigitsOrUnderscores(s)
    && forall i :: 0 <= i < |s| && s[i] == '_' ==> i + 1 < |s| && IsDigit(s[i + 1])
  }

  predicate DigitsOrUnderscores(s: string) {
    forall i :: 0 <= i < |s| ==> IsDigit(s[i]) || s[i] == '_'
  }

  /** The digits of `s` with every underscore removed. */
  function Ungrouped(s: string): (r: string)
    requires DigitsOrUnderscores(s)
    ensures AllDigits(r)
  {
    if s == [] then []
    else if s[0] == '_' then Ungrouped(s[1..])
    else [s[0]] + Ungrouped(s[1..])
  }

  /** CPython's default limit on the number of digits `int()` converts from
      decimal text (`sys.get_int_max_str_digits()`): longer text raises
      ValueError. Leading zeros count as digits; underscores do not. */
  const MaxStrDigits: nat := 4300

  /** `int()` of an unsigned body. */
  function ParseUnsigned(s: string): (r: Option<nat>)
    ensures r.Some? <==> WellGrouped(s) && |Ungrouped(s)| <= MaxStrDigits
    ensures r.Some? ==> r.value == DigitsValue(Ungrouped(s))
  {
    if WellGrouped(s) && |Ungrouped(s)| <= MaxStrDigits then
      Some(DigitsValue(Ungrouped(s)))
    else None
  }

  /** The length of an optional leading sign. */
  function SignLength(s: string): (n: nat)
    ensures n <= |s|
  {
    if |s| > 0 && (s[0] == '+' || s[0] == '-') then 1 else 0
  }

  /** Python's `int(s)` for base 10 on an already stripped string: an optional
      sign, then a well-grouped digit body of at most `MaxStrDigits` digits;
      anything else is a ValueError (None). */
  function ParseInt(s: string): (r: Option<int>)
    ensures r.Some? <==> WellGrouped(s[SignLength(s)..]) && |Ungrouped(s[SignLength(s)..])| <= MaxStrDigits
    ensures r.Some? ==>
              var n: int := DigitsValue(Ungrouped(s[SignLength(s)..]));
              r.value == if s[0] == '-' then -n else n
    ensures r.Some? ==> |s| > 0 && (IsDigit(s[0]) || s[0] == '+' || s[0] == '-')
    ensures r.Some? && r.value < 0 ==> s[0] == '-'
    ensures forall i :: 0 < i < |s| && !IsDigit(s[i]) && s[i] != '_' ==> r.None?
  {
    if |s| > 0 && (s[0] == '+' || s[0] == '-') then
      match ParseUnsigned(s[1..])
      case None => None
      case Some(n) =>
        var v: int := if s[0] == '-' then -(n as int) else n;
        Some(v)
    else
      match ParseUnsigned(s)
      case None => None
      case Some(n) => Some(n)
  }

  /** A leading plus sign changes nothing. */
  lemma ParseIntPlus(d: string)
    requires SignLength(d) == 0
    ensures ParseInt("+" + d) == ParseInt(d)
  {
    assert ("+" + d)[1..] == d;
  }

  /** A leading minus sign negates, and is accepted exactly when the digits are. */
  lemma ParseIntMinus(d: string)
    requires SignLength(d) == 0
    ensures ParseInt("-" + d).Some? <==> ParseInt(d).Some?
    ensures ParseInt(d).Some? ==> ParseInt("-" + d) == Some(-ParseInt(d).value)
  {
    assert ("-" + d)[1..] == d;
  }

  /** A leading zero adds nothing to the value, but does count against the digit limit. */
  lemma ParseIntLeadingZero(d: string)
    requires WellGrouped(d)
    ensures ParseInt("0" + d).Some? <==> |Ungrouped(d)| < MaxStrDigits
    ensures |Ungrouped(d)| < MaxStrDigits ==> ParseInt("0" + d) == ParseInt(d)
  {
    var z := "0" + d;
    ZeroPrefixGrouped(d);
    LeadingZeroValue(Ungrouped(d));
    UnsignedParse(z);
    UnsignedParse(d);
  }

  /** Without a sign, `int()` is the unsigned reading. */
  lemma UnsignedParse(x: string)
    requires WellGrouped(x)
    ensures ParseInt(x).Some? <==> |Ungrouped(x)| <= MaxStrDigits
    ensures ParseInt(x).Some? ==> ParseInt(x).value == DigitsValue(Ungrouped(x))
  {
  }

  lemma ZeroPrefixGrouped(d: string)
    requires WellGrouped(d)
    ensures WellGrouped("0" + d)
    ensures Ungrouped("0" + d) == "0" + Ungrouped(d)
  {
    var z := "0" + d;
    assert z[1..] == d;
    assert forall i :: 0 < i < |z| ==> z[i] == d[i - 1];
  }

  /** An underscore between two groups of digits changes nothing. */
  lemma ParseIntUnderscore(a: string, b: string)
    requires a != [] && b != [] && AllDigits(a) && AllDigits(b)
    ensures ParseInt(a + "_" + b) == ParseInt(a + b)
  {
    GroupsJoined(a, b);
    UngroupedJoin(a, b);
    UnsignedParse(a + "_" + b);
    UnsignedParse(a + b);
  }

  lemma GroupsJoined(a: string, b: string)
    requires a != [] && b != [] && AllDigits(a) && AllDigits(b)
    ensures WellGrouped(a + "_" + b) && WellGrouped(a + b)
  {
    var g, p := a + "_" + b, a + b;
    assert forall i :: 0 <= i < |a| ==> g[i] == a[i] && p[i] == a[i];
    assert forall i :: |a| < i < |g| ==> g[i] == b[i - |a| - 1];
    assert forall i :: |a| <= i < |p| ==> p[i] == b[i - |a|];
  }

  lemma UngroupedJoin(a: string, b: string)
    requires AllDigits(a) && AllDigits(b)
    ensures DigitsOrUnderscores(a + "_" + b) && DigitsOrUnderscores(a + b)
    ensures Ungrouped(a + "_" + b) == Ungrouped(a + b) == a + b
  {
    PlainDigits(a);
    PlainDigits(b);
    var u := "_" + b;
    assert u[1..] == b;
    assert Ungrouped(u) == b;
    UngroupedAppend(a, u);
    assert a + "_" + b == a + u;
    UngroupedAppend(a, b);
  }

  /** Plain digits are their own ungrouped form. */
  lemma {:induction false} PlainDigits(s: string)
    requires AllDigits(s)
    ensures DigitsOrUnderscores(s) && Ungrouped(s) == s
    decreases |s|
  {
    if s != [] {
      assert AllDigits(s[1..]);
      PlainDigits(s[1..]);
      assert [s[0]] + s[1..] == s;
    }
  }


  /** Removing underscores works piecewise. */
  lemma {:induction false} UngroupedAppend(x: string, y: string)
    requires DigitsOrUnderscores(x) && DigitsOrUnderscores(y)
    ensures DigitsOrUnderscores(x + y)
    ensures Ungrouped(x + y) == Ungrouped(x) + Ungrouped(y)
    decreases |x|
  {
    GroupedAppend(x, y);
    if x == [] {
      assert x + y == y;
    } else {
      var t := x[1..];
      assert DigitsOrUnderscores(t);
      GroupedAppend(t, y);
      assert (x + y)[0] == x[0] && (x + y)[1..] == t + y;
      UngroupedAppend(t, y);
      if x[0] == '_' {
        calc {
          Ungrouped(x + y);
          Ungrouped(t + y);
          Ungrouped(t) + Ungrouped(y);
          Ungrouped(x) + Ungrouped(y);
        }
      } else {
        calc {
          Ungrouped(x + y);
          [x[0]] + Ungrouped(t + y);
          [x[0]] + (Ungrouped(t) + Ungrouped(y));
          ([x[0]] + Ungrouped(t)) + Ungrouped(y);
          Ungrouped(x) + Ungrouped(y);
        }
      }
    }
  }

  lemma GroupedAppend(x: string, y: string)
    requires DigitsOrUnderscores(x) && DigitsOrUnderscores(y)
    ensures DigitsOrUnderscores(x + y)
  {
    assert forall i :: 0 <= i < |x + y| ==> (x + y)[i] == if i < |x| then x[i] else y[i - |x|];
  }


  /** A leading zero digit adds nothing to the value. */
  lemma {:induction false} LeadingZeroValue(x: string)
    requires AllDigits(x)
    ensures AllDigits("0" + x) && DigitsValue("0" + x) == DigitsValue(x)
    decreases |x|
  {
    if x != [] {
      var init := x[..|x| - 1];
      assert ("0" + x)[..|x|] == "0" + init;
      LeadingZeroValue(init);
    }
  }

  /** Text of more than `MaxStrDigits` plain digits is refused, however small
      its value (leading zeros included). */
  lemma TooManyDigitsRejected(s: string)
    requires AllDigits(s) && |s| > MaxStrDigits
    ensures ParseInt(s) == None
  {
    assert s[0] != '+' && s[0] != '-';
    PlainDigits(s);
  }

  /** `str(n)` for a natural number: decimal digits, most significant first,
      with no leading zero except for 0 itself. */
  function Decimal(n: nat): (r: string)
    ensures |r| > 0 && AllDigits(r) && DigitsValue(r) == n
    ensures |r| > 1 ==> r[0] != '0'
  {
    if n < 10 then [DigitChar(n)]
    else
      var r := Decimal(n / 10) + [DigitChar(n % 10)];
      assert r[..|r| - 1] == Decimal(n / 10);
      r
  }

  /** `str(i)` for any integer. */
  function IntToString(i: int): (r: string)
    ensures |r| > 0
    ensures i < 0 <==> r[0] == '-'
  {
    if i < 0 then "-" + Decimal(-i) else Decimal(i)
  }

  /** The magnitude of an integer. */
  function Abs(i: int): nat {
    if i < 0 then -i else i
  }

  /** Reading back what `str()` wrote gives the same integer, for every
      integer within the digit limit (beyond it `str()` itself raises). */
  lemma ParseIntRoundTrip(i: int)
    requires |Decimal(Abs(i))| <= MaxStrDigits
    ensures ParseInt(IntToString(i)) == Some(i)
  {
    var d := Decimal(Abs(i));
    PlainDigits(d);
    assert WellGrouped(d);
    UnsignedParse(d);
    if i < 0 {
      ParseIntMinus(d);
    }
  }

}

=== FILE: paths.dfy ===
/** POSIX path handling as Python's `posixpath` does it, lexically: `join`,
    `normpath`, `abspath` (against a given working directory) and `relpath`.
    A normalised absolute path is "/" followed by its components joined with
    "/", and the components are kept as a list. */
module Paths {
  import opened Wrappers
  import opened Text

  const Sep: char := '/'

  predicate IsAbs(p: string) {
    |p| > 0 && p[0] == Sep
  }

  /** The process working directory, which is always absolute. */
  type AbsolutePath = p: string | IsAbs(p) witness "/"

  /** `os.path.join(a, b)`: an absolute `b` replaces `a`; otherwise `b` is
      appended after exactly one separator. */
  function Join(a: string, b: string): (r: string)
    ensures IsAbs(b) ==> r == b
    ensures !IsAbs(b) ==> a <= r
    ensures IsAbs(a) ==> IsAbs(r)
  {
    if IsAbs(b) then b
    else if a == [] || a[|a| - 1] == Sep then a + b
    else a + [Sep] + b
  }

  /** Components as `normpath` leaves them: none empty, ".", ".." or holding "/". */
  predicate Clean(segs: seq<string>) {
    forall k :: 0 <= k < |segs| ==> segs[k] != "" && segs[k] != "." && segs[k] != ".." && Sep !in segs[k]
  }

  predicate NoSep(parts: seq<string>) {
    forall k :: 0 <= k < |parts| ==> Sep !in parts[k]
  }

  /** The component loop of `normpath` for a path with a leading slash: empty
      and "." components vanish, ".." drops the last kept component (and is
      discarded at the root), anything else is kept. */
  function Resolve(stack: seq<string>, comps: seq<string>): (r: seq<string>)
    requires Clean(stack) && NoSep(comps)
    ensures Clean(r)
    decreases |comps|
  {
    if comps == [] then stack
    else if comps[0] == "" || comps[0] == "." then Resolve(stack, comps[1..])
    else if comps[0] == ".." then Resolve(if stack == [] then [] else stack[..|stack| - 1], comps[1..])
    else Resolve(stack + [comps[0]], comps[1..])
  }

  /** The absolute path spelled by a list of components. */
  function Render(segs: seq<string>): AbsolutePath {
    [Sep] + JoinWith(segs, Sep)
  }

  /** The normalised components of `abspath(p)`. */
  function Components(p: string, cwd: AbsolutePath): (segs: seq<string>)
    ensures Clean(segs)
  {
    Resolve([], Split(if IsAbs(p) then p else Join(cwd, p), Sep))
  }

  /** `os.path.abspath(p)`: relative paths are taken from `cwd`, then normalised. */
  function Abspath(p: string, cwd: AbsolutePath): (r: AbsolutePath)
    ensures Components(r, cwd) == Components(p, cwd)
  {
    ComponentsOfRender(Components(p, cwd), cwd);
    Render(Components(p, cwd))
  }

  /** The non-empty parts of a split (`[x for x in parts if x]`). */
  function NonEmpty(parts: seq<string>): (r: seq<string>)
    ensures forall k :: 0 <= k < |r| ==> r[k] != ""
  {
    if parts == [] then []
    else if parts[0] == "" then NonEmpty(parts[1..])
    else [parts[0]] + NonEmpty(parts[1..])
  }

  /** Length of the longest common prefix (`os.path.commonprefix` on two lists). */
  function CommonPrefixLen(a: seq<string>, b: seq<string>): (n: nat)
    ensures n <= |a| && n <= |b| && a[..n] == b[..n]
    ensures n < |a| && n < |b| ==> a[n] != b[n]
  {
    if a == [] || b == [] || a[0] != b[0] then 0
    else
      var n := 1 + CommonPrefixLen(a[1..], b[1..]);
      assert a[..n] == [a[0]] + a[1..][..n - 1];
      assert b[..n] == [b[0]] + b[1..][..n - 1];
      n
  }

  function Repeat(x: string, k: nat): (r: seq<string>)
    ensures |r| == k && forall i :: 0 <= i < k ==> r[i] == x
  {
    if k == 0 then [] else [x] + Repeat(x, k - 1)
  }

  /** The component list `relpath` builds: one ".." per base component past
      the common prefix, then the rest of the target. */
  function RelativeParts(base: seq<string>, target: seq<string>): seq<string> {
    var n := CommonPrefixLen(base, target);
    Repeat("..", |base| - n) + target[n..]
  }

  /** The string `relpath` returns for a component list ("." when empty). */
  function RelativeText(parts: seq<string>): string {
    if parts == [] then "." else JoinWith(parts, Sep)
  }

  /** `os.path.relpath(path, start)`: None stands for its ValueError on an empty path. */
  function Relpath(path: string, start: string, cwd: AbsolutePath): (r: Option<string>)
    ensures r.None? <==> path == ""
  {
    if path == "" then None
    else
      var startParts := NonEmpty(Split(Abspath(start, cwd), Sep));
      var pathParts := NonEmpty(Split(Abspath(path, cwd), Sep));
      Some(RelativeText(RelativeParts(startParts, pathParts)))
  }

  // ---------------------------------------------------------------------------
  // Lemmas

  lemma {:induction false} NonEmptyOfClean(segs: seq<string>)
    requires Clean(segs)
    ensures NonEmpty(segs) == segs
    decreases |segs|
  {
    if segs != [] {
      NonEmptyOfClean(segs[1..]);
      assert [segs[0]] + segs[1..] == segs;
    }
  }

  /** Splitting a rendered path: an empty leading part, then the components
      (or one more empty part for the root itself). */
  lemma SplitRender(segs: seq<string>)
    requires Clean(segs)
    ensures Split(Render(segs), Sep) == [""] + (if segs == [] then [""] else segs)
  {
    SplitAppend("", JoinWith(segs, Sep), Sep);
    assert "" + [Sep] + JoinWith(segs, Sep) == Render(segs);
    if segs != [] {
      SplitJoin(segs, Sep);
    }
  }

  /** The non-empty parts of a rendered path are its components. */
  lemma PartsOfRender(segs: seq<string>)
    requires Clean(segs)
    ensures NonEmpty(Split(Render(segs), Sep)) == segs
  {
    SplitRender(segs);
    var rest := if segs == [] then [""] else segs;
    assert ([""] + rest)[1..] == rest;
    assert NonEmpty([""] + rest) == NonEmpty(rest);
    if segs == [] {
      assert NonEmpty([""]) == NonEmpty([""][1..]);
    } else {
      NonEmptyOfClean(segs);
    }
  }

  /** Resolving a list in two pieces: the second piece continues from where the first left the stack. */
  lemma {:induction false} ResolveAppend(stack: seq<string>, comps: seq<string>, tail: seq<string>)
    requires Clean(stack) && NoSep(comps) && NoSep(tail)
    ensures NoSep(comps + tail)
    ensures Resolve(stack, comps + tail) == Resolve(Resolve(stack, comps), tail)
    decreases |comps|
  {
    if comps == [] {
      assert comps + tail == tail;
    } else {
      assert (comps + tail)[1..] == comps[1..] + tail;
      var c := comps[0];
      var next := if c == "" || c == "." then stack
                  else if c == ".." then (if stack == [] then [] else stack[..|stack| - 1])
                  else stack + [c];
      ResolveAppend(next, comps[1..], tail);
    }
  }

  /** Clean components are pushed unchanged. */
  lemma {:induction false} ResolveClean(stack: seq<string>, segs: seq<string>, rest: seq<string>)
    requires Clean(stack) && Clean(segs) && NoSep(rest)
    ensures NoSep(segs + rest)
    ensures Resolve(stack, segs + rest) == Resolve(stack + segs, rest)
    decreases |segs|
  {
    if segs == [] {
      assert segs + rest == rest;
      assert stack + segs == stack;
    } else {
      assert (segs + rest)[1..] == segs[1..] + rest;
      assert stack + [segs[0]] + segs[1..] == stack + segs;
      ResolveClean(stack + [segs[0]], segs[1..], rest);
    }
  }

  /** Each ".." drops one kept component. */
  lemma {:induction false} ResolvePops(stack: seq<string>, k: nat, rest: seq<string>)
    requires Clean(stack) && NoSep(rest) && k <= |stack|
    ensures NoSep(Repeat("..", k) + rest)
    ensures Resolve(stack, Repeat("..", k) + rest) == Resolve(stack[..|stack| - k], rest)
    decreases k
  {
    if k == 0 {
      assert Repeat("..", k) + rest == rest;
      assert stack[..|stack|] == stack;
    } else {
      var comps := Repeat("..", k) + rest;
      assert comps[0] == "..";
      assert comps[1..] == Repeat("..", k - 1) + rest;
      var popped := stack[..|stack| - 1];
      ResolvePops(popped, k - 1, rest);
      assert popped[..|popped| - (k - 1)] == stack[..|stack| - k];
    }
  }

  /** Splitting and resolving a rendered clean path gives back its components. */
  lemma ComponentsOfRender(segs: seq<string>, cwd: AbsolutePath)
    requires Clean(segs)
    ensures Components(Render(segs), cwd) == segs
  {
    SplitRender(segs);
    var comps := [""] + (if segs == [] then [""] else segs);
    assert Resolve([], comps) == Resolve([], comps[1..]);
    if segs == [] {
      assert comps[1..] == [""];
      assert Resolve([], [""]) == Resolve([], []);
    } else {
      ResolveClean([], segs, []);
      assert segs + [] == segs;
    }
  }

  /** Normalising an already normalised absolute path changes nothing. */
  lemma AbspathOfRender(segs: seq<string>, cwd: AbsolutePath)
    requires Clean(segs)
    ensures Components(Render(segs), cwd) == segs
    ensures Abspath(Render(segs), cwd) == Render(segs)
  {
    ComponentsOfRender(segs, cwd);
  }

  /** `abspath` is idempotent. */
  lemma AbspathIdempotent(p: string, cwd: AbsolutePath)
    ensures Abspath(Abspath(p, cwd), cwd) == Abspath(p, cwd)
    ensures Components(Abspath(p, cwd), cwd) == Components(p, cwd)
  {
    AbspathOfRender(Components(p, cwd), cwd);
  }

  /** A rendered path other than the root does not end with a separator. */
  lemma RenderNoTrailingSep(bs: seq<string>)
    requires Clean(bs) && bs != []
    ensures var a := Render(bs); a[|a| - 1] != Sep
  {
    var last := bs[|bs| - 1];
    JoinWithLast(bs, Sep);
    assert last[|last| - 1] in last;
  }

  /** The separator `join(a, b)` puts between `a` and a relative `b`. */
  function JoinSep(a: string): string {
    if a == [] || a[|a| - 1] == Sep then "" else [Sep]
  }

  /** `join(a, b)` for a relative `b`, spelled out. */
  lemma JoinRelative(a: string, b: string)
    requires !IsAbs(b)
    ensures Join(a, b) == a + JoinSep(a) + b
  {
    if a == [] || a[|a| - 1] == Sep {
      assert a + "" == a;
    }
  }

  /** Joining onto a relative directory and then onto the working directory
      is joining onto the working directory first. */
  lemma JoinAssoc(cwd: AbsolutePath, dir: string, name: string)
    requires dir != "" && !IsAbs(name) && name != ""
    ensures IsAbs(dir) ==> IsAbs(Join(dir, name))
    ensures !IsAbs(dir) ==> Join(cwd, Join(dir, name)) == Join(Join(cwd, dir), name)
  {
    if !IsAbs(dir) {
      var inner := Join(dir, name);
      JoinRelative(dir, name);
      JoinStartsLikeDir(dir, JoinSep(dir), name);
      JoinRelative(cwd, inner);
      var outer := Join(cwd, dir);
      JoinRelative(cwd, dir);
      SameJoinSep(cwd + JoinSep(cwd), dir);
      JoinRelative(outer, name);
      Regroup(cwd + JoinSep(cwd), dir, JoinSep(dir), name);
    }
  }

  lemma JoinStartsLikeDir(dir: string, sep: string, name: string)
    requires !IsAbs(dir) && dir != []
    ensures !IsAbs(dir + sep + name)
  {
    assert (dir + sep + name)[0] == dir[0];
  }

  lemma SameJoinSep(front: string, dir: string)
    requires dir != []
    ensures JoinSep(front + dir) == JoinSep(dir)
  {
    assert (front + dir)[|front + dir| - 1] == dir[|dir| - 1];
  }

  lemma Regroup(a: string, b: string, c: string, d: string)
    ensures a + (b + c + d) == a + b + c + d
  {
  }

  /** `join(render(bs), x)` for a relative, non-empty `x` spelled as a join of parts. */
  lemma JoinRender(bs: seq<string>, parts: seq<string>)
    requires Clean(bs) && NoSep(parts) && |parts| >= 1 && parts[0] != ""
    ensures Join(Render(bs), JoinWith(parts, Sep)) == [Sep] + JoinWith(bs + parts, Sep)
  {
    var x := JoinWith(parts, Sep);
    JoinWithFirst(parts, Sep);
    assert x[0] == parts[0][0];
    JoinRelative(Render(bs), x);
    if bs == [] {
      assert bs + parts == parts;
      assert Render(bs) == [Sep];
      assert JoinSep(Render(bs)) == "";
      assert [Sep] + "" + x == [Sep] + x;
    } else {
      RenderNoTrailingSep(bs);
      JoinRenderBelow(bs, parts);
    }
  }

  lemma JoinRenderBelow(bs: seq<string>, parts: seq<string>)
    requires Clean(bs) && |parts| >= 1 && bs != []
    ensures Render(bs) + [Sep] + JoinWith(parts, Sep) == [Sep] + JoinWith(bs + parts, Sep)
  {
    JoinWithAppend(bs, parts, Sep);
    var a, b := JoinWith(bs, Sep), JoinWith(parts, Sep);
    assert [Sep] + a + [Sep] + b == [Sep] + (a + [Sep] + b);
  }

  /** Splitting `join(render(bs), join(L))` when L does not start with a separator. */
  lemma SplitJoinRender(bs: seq<string>, parts: seq<string>)
    requires Clean(bs) && NoSep(parts) && |parts| >= 1 && parts[0] != ""
    ensures Split(Join(Render(bs), JoinWith(parts, Sep)), Sep) == [""] + (bs + parts)
  {
    JoinRender(bs, parts);
    SplitLeadingSep(bs + parts);
  }

  lemma SplitLeadingSep(glued: seq<string>)
    requires NoSep(glued) && |glued| >= 1
    ensures Split([Sep] + JoinWith(glued, Sep), Sep) == [""] + glued
  {
    SplitAppend("", JoinWith(glued, Sep), Sep);
    assert "" + [Sep] + JoinWith(glued, Sep) == [Sep] + JoinWith(glued, Sep);
    SplitJoin(glued, Sep);
  }

  /** Normalising `join(render(bs), join(L))` resolves L on top of bs. */
  lemma ComponentsOfJoin(bs: seq<string>, list: seq<string>, cwd: AbsolutePath)
    requires Clean(bs) && NoSep(list) && |list| >= 1 && list[0] != ""
    ensures Components(Join(Render(bs), JoinWith(list, Sep)), cwd) == Resolve(bs, list)
  {
    SplitJoinRender(bs, list);
    var comps := [""] + (bs + list);
    assert comps[1..] == bs + list;
    assert Resolve([], comps) == Resolve([], bs + list);
    ResolveClean([], bs, list);
    assert [] + bs == bs;
  }

  /** A clean list cut in two gives two clean halves. */
  lemma CleanHalves(ps: seq<string>, n: nat)
    requires Clean(ps) && n <= |ps|
    ensures Clean(ps[..n]) && Clean(ps[n..]) && ps[..n] + ps[n..] == ps
  {
    assert forall i :: 0 <= i < |ps| - n ==> ps[n..][i] == ps[n + i];
  }

  /** Resolving "..".. then the target's tail on top of the base reaches the target. */
  lemma ResolveRelativeParts(bs: seq<string>, ps: seq<string>)
    requires Clean(bs) && Clean(ps)
    ensures NoSep(RelativeParts(bs, ps))
    ensures Resolve(bs, RelativeParts(bs, ps)) == ps
  {
    var n := CommonPrefixLen(bs, ps);
    CleanHalves(ps, n);
    PopThenPush(bs, ps[..n], ps[n..], |bs| - n);
  }

  /** Climbing `k` levels out of `bs` to `head`, then descending into `tail`. */
  lemma PopThenPush(bs: seq<string>, head: seq<string>, tail: seq<string>, k: nat)
    requires Clean(bs) && Clean(head) && Clean(tail)
    requires k <= |bs| && bs[..|bs| - k] == head
    ensures NoSep(Repeat("..", k) + tail)
    ensures Resolve(bs, Repeat("..", k) + tail) == head + tail
  {
    ResolvePops(bs, k, tail);
    ResolveClean(head, tail, []);
    assert tail + [] == tail;
  }

  /** The lexical core of the round trip: joining a base with the relative
      path `relpath` computed against it and normalising gives the target back. */
  lemma RelativeTextRoundTrip(bs: seq<string>, ps: seq<string>, cwd: AbsolutePath)
    requires Clean(bs) && Clean(ps)
    ensures Abspath(Join(Render(bs), RelativeText(RelativeParts(bs, ps))), cwd) == Render(ps)
  {
    var parts := RelativeParts(bs, ps);
    ResolveRelativeParts(bs, ps);
    if parts == [] {
      var n := CommonPrefixLen(bs, ps);
      assert n == |bs| == |ps|;
      assert bs == bs[..n] == ps[..n] == ps;
      ComponentsOfJoin(bs, ["."], cwd);
      assert Resolve(bs, ["."]) == Resolve(bs, []);
    } else {
      ComponentsOfJoin(bs, parts, cwd);
    }
  }

  /** `relpath` then `join` round trip on real paths: for a normalised base,
      joining it with `relpath(target, base)` and normalising reaches `abspath(target)`. */
  lemma RelpathRoundTrip(target: string, base: string, cwd: AbsolutePath)
    requires target != ""
    ensures Relpath(target, Abspath(base, cwd), cwd).Some?
    ensures Abspath(Join(Abspath(base, cwd), Relpath(target, Abspath(base, cwd), cwd).value), cwd)
            == Abspath(target, cwd)
  {
    var bs := Components(base, cwd);
    var ps := Components(target, cwd);
    AbspathIdempotent(base, cwd);
    PartsOfRender(bs);
    PartsOfRender(ps);
    RelativeTextRoundTrip(bs, ps, cwd);
  }
}

=== FILE: serve.dfy ===
/** Serving of stored artifacts (`GET /files/{filename:path}`): the requested
    path is resolved against an ordered list of roots (primary, then
    fallback), and a file is returned only from a root whose absolute form is
    a string prefix of the resolved target. */
module Serve {
  import opened Wrappers
  import opened Text
  import opened Attempts
  import opened Paths
  import opened Artifacts

  /** The lookup under one root: `abspath(join(abspath(base), filename))`,
      kept only when it starts with the root string and exists. */
  function Candidate(filename: string, base: string, files: set<string>, cwd: AbsolutePath): (r: Option<string>)
    ensures r.Some? ==> r.value in files && Abspath(base, cwd) <= r.value
    ensures r.Some? ==> r.value == Abspath(Join(Abspath(base, cwd), filename), cwd)
    ensures var target := Abspath(Join(Abspath(base, cwd), filename), cwd);
            r.Some? <==> Abspath(base, cwd) <= target && target in files
  {
    var root := Abspath(base, cwd);
    var target := Abspath(Join(root, filename), cwd);
    if root <= target && target in files then Some(target) else None
  }

  /** `serve_file`: the first root that yields a contained, existing target
      wins; None is the 404 "Not Found" reply. */
  function ServeFile(filename: string, roots: seq<string>, files: set<string>, cwd: AbsolutePath): (r: Option<string>)
    ensures r.None? <==> forall k :: 0 <= k < |roots| ==> Candidate(filename, roots[k], files, cwd).None?
    ensures r.Some? ==> r.value in files
    ensures r.Some? ==>
              exists k :: 0 <= k < |roots| && Abspath(roots[k], cwd) <= r.value
                          && r == Candidate(filename, roots[k], files, cwd)
                          && forall j :: 0 <= j < k ==> Candidate(filename, roots[j], files, cwd).None?
  {
    FirstSome(roots, (base: string) => Candidate(filename, base, files, cwd))
  }

  /** The primary root is consulted first: whenever it yields a file, that file
      is served, whatever the fallback holds. */
  lemma PrimaryBeforeFallback(filename: string, primary: string, fallback: string, files: set<string>, cwd: AbsolutePath)
    ensures Candidate(filename, primary, files, cwd).Some? ==>
              ServeFile(filename, [primary, fallback], files, cwd) == Candidate(filename, primary, files, cwd)
    ensures Candidate(filename, primary, files, cwd).None? ==>
              ServeFile(filename, [primary, fallback], files, cwd) == Candidate(filename, fallback, files, cwd)
  {
    var roots := [primary, fallback];
    var r := ServeFile(filename, roots, files, cwd);
    if r.Some? {
      var k :| 0 <= k < |roots| && r == Candidate(filename, roots[k], files, cwd)
               && forall j :: 0 <= j < k ==> Candidate(filename, roots[j], files, cwd).None?;
      assert roots[0] == primary && roots[1] == fallback;
    }
  }

  /** An absolute request ignores the root it is joined to: it is served from a
      root only when its own absolute form starts with that root. */
  lemma AbsoluteRequest(filename: string, base: string, files: set<string>, cwd: AbsolutePath)
    requires IsAbs(filename)
    ensures Candidate(filename, base, files, cwd).Some? <==>
              Abspath(base, cwd) <= Abspath(filename, cwd) && Abspath(filename, cwd) in files
  {
  }

  /** A reported download path serves the stored file back: stripping "/files/"
      from it and serving the rest, with the store's directory as first root,
      reaches exactly the file that was written. */
  lemma DownloadPathServesFile(path: string, dir: string, outputDir: string, others: seq<string>,
                               files: set<string>, cwd: AbsolutePath)
    requires dir != ""
    requires Abspath(path, cwd) in files
    requires '\\' !in Abspath(path, cwd)
    requires RelativeDownloadPath(path, dir, outputDir, cwd).Some?
    ensures FilesPrefix <= RelativeDownloadPath(path, dir, outputDir, cwd).value
    ensures ServeFile(RelativeDownloadPath(path, dir, outputDir, cwd).value[|FilesPrefix|..], [dir] + others, files, cwd)
            == Some(Abspath(path, cwd))
  {
    var base := Abspath(dir, cwd);
    var target := Abspath(path, cwd);
    var ps := Components(path, cwd);
    AbspathIdempotent(path, cwd);
    AbspathIdempotent(dir, cwd);
    PartsOfRender(ps);
    PartsOfRender(Components(dir, cwd));
    RelpathRoundTrip(target, dir, cwd);
    var rel := Relpath(target, base, cwd).value;
    assert '\\' !in rel by {
      JoinWithAvoids(ps, Sep, '\\');
      var parts := RelativeParts(Components(dir, cwd), ps);
      assert forall k :: 0 <= k < |parts| ==> '\\' !in parts[k];
      JoinWithAvoids(parts, Sep, '\\');
    }
    ReplaceAbsent(rel, '\\', '/');
    var url := RelativeDownloadPath(path, dir, outputDir, cwd).value;
    assert url == FilesPrefix + rel;
    assert url[|FilesPrefix|..] == rel;
    var roots := [dir] + others;
    assert roots[0] == dir;
    assert Candidate(rel, dir, files, cwd) == Some(target);
    var r := ServeFile(rel, roots, files, cwd);
    var k :| 0 <= k < |roots| && r == Candidate(rel, roots[k], files, cwd)
             && forall j :: 0 <= j < k ==> Candidate(rel, roots[j], files, cwd).None?;
    assert k == 0;
  }

  // ---------------------------------------------------------------------------
  // String-prefix containment admits sibling directories.

  /** A path lies strictly below a directory: past the directory's own string
      and a separator (or anywhere below "/" for the root itself). */
  predicate StrictlyBelow(dir: string, path: string) {
    if dir == "/" then |path| > 1 && path[0] == Sep else dir + [Sep] <= path
  }

  /** Corrected lookup under one root: the target's components must extend the
      root's components, so only descendants of the root directory qualify. */
  function StrictCandidate(filename: string, base: string, files: set<string>, cwd: AbsolutePath): (r: Option<string>)
    ensures r.Some? ==> r.value in files && StrictlyBelow(Abspath(base, cwd), r.value)
    ensures r.Some? ==> r.value == Abspath(Join(Abspath(base, cwd), filename), cwd)
    ensures var request := Join(Abspath(base, cwd), filename);
            r.Some? <==> Components(base, cwd) < Components(request, cwd) && Abspath(request, cwd) in files
  {
    var rootSegs := Components(base, cwd);
    AbspathIdempotent(base, cwd);
    var targetSegs := Components(Join(Abspath(base, cwd), filename), cwd);
    if rootSegs < targetSegs && Render(targetSegs) in files then
      DescendantIsBelow(rootSegs, targetSegs);
      Some(Render(targetSegs))
    else None
  }

  /** Component-wise descendants are string-wise strictly below, separator included. */
  lemma DescendantIsBelow(bs: seq<string>, ps: seq<string>)
    requires Clean(bs) && Clean(ps) && bs < ps
    ensures StrictlyBelow(Render(bs), Render(ps))
  {
    var rest := ps[|bs|..];
    assert ps == bs + rest;
    assert ps[0] != "";
    if bs == [] {
      JoinWithFirst(ps, Sep);
    } else {
      JoinWithAppend(bs, rest, Sep);
      assert Render(bs) != "/";
    }
  }

  /** Corrected `serve_file`: first root that yields a strict descendant that exists. */
  function ServeFileStrict(filename: string, roots: seq<string>, files: set<string>, cwd: AbsolutePath): (r: Option<string>)
    ensures r.None? <==> forall k :: 0 <= k < |roots| ==> StrictCandidate(filename, roots[k], files, cwd).None?
    ensures r.Some? ==> r.value in files && exists k :: 0 <= k < |roots| && StrictlyBelow(Abspath(roots[k], cwd), r.value)
  {
    FirstSome(roots, (base: string) => StrictCandidate(filename, base, files, cwd))
  }

  /** Joining "../sibling/file" to a directory climbs to its parent first. */
  lemma {:induction false} ClimbToSibling(root: string, request: string, parent: seq<string>, dir: string,
                                          sibling: string, file: string, cwd: AbsolutePath)
    requires Clean(parent + [dir]) && Clean([sibling, file])
    requires root == Render(parent + [dir]) && request == JoinWith(["..", sibling, file], Sep)
    ensures Components(Join(root, request), cwd) == parent + [sibling, file]
  {
    var request := ["..", sibling, file];
    assert NoSep(request) by {
      assert [sibling, file][0] == sibling && [sibling, file][1] == file;
    }
    ComponentsOfJoin(parent + [dir], request, cwd);
    assert (parent + [dir])[..|parent + [dir]| - 1] == parent;
    assert Clean(parent) by {
      assert forall k :: 0 <= k < |parent| ==> parent[k] == (parent + [dir])[k];
    }
    calc {
      Resolve(parent + [dir], request);
      Resolve(parent, request[1..]);
      Resolve(parent + [sibling], request[2..]);
      Resolve(parent + [sibling] + [file], request[3..]);
    }
    assert request[3..] == [];
    assert parent + [sibling] + [file] == parent + [sibling, file];
  }

  /** A root's absolute form is a string prefix of every path in a sibling
      directory whose name extends the root's own last component. */
  lemma SiblingSharesPrefix(parent: seq<string>, dir: string, ext: string, file: string)
    requires Clean(parent + [dir]) && Clean([dir + ext, file])
    ensures Render(parent + [dir]) <= Render(parent + [dir + ext, file])
  {
    var sibling := [dir + ext, file];
    assert [dir + ext, file][0] == dir + ext;
    JoinWithFirst(sibling, Sep);
    if parent == [] {
      assert parent + [dir] == [dir];
      assert parent + sibling == sibling;
    } else {
      JoinWithAppend(parent, [dir], Sep);
      JoinWithAppend(parent, sibling, Sep);
      assert JoinWith([dir], Sep) == dir;
    }
  }

  /** The lookup under a root `parent/dir` of the request "../<dir+ext>/file":
      the string check lets the sibling file through whenever it exists, while
      the component check refuses it always. */
  lemma SiblingCandidates(parent: seq<string>, dir: string, ext: string, file: string,
                          files: set<string>, cwd: AbsolutePath)
    requires Clean(parent + [dir]) && Clean([dir + ext, file]) && ext != ""
    ensures var request := JoinWith(["..", dir + ext, file], Sep);
            var sibling := Render(parent + [dir + ext, file]);
            && Candidate(request, Render(parent + [dir]), files, cwd) == (if sibling in files then Some(sibling) else None)
            && StrictCandidate(request, Render(parent + [dir]), files, cwd) == None
  {
    var root := Render(parent + [dir]);
    var request := JoinWith(["..", dir + ext, file], Sep);
    AbspathOfRender(parent + [dir], cwd);
    ClimbToSibling(root, request, parent, dir, dir + ext, file, cwd);
    SiblingSharesPrefix(parent, dir, ext, file);
    var segs := parent + [dir + ext, file];
    assert !(parent + [dir] < segs) by {
      assert segs[|parent|] == dir + ext;
      assert (parent + [dir])[|parent|] == dir;
      assert |dir + ext| != |dir|;
    }
  }

  /** As written: whenever the first root is `parent/dir`, the request
      "../<dir+ext>/file" climbs out of it into the sibling directory
      `parent/<dir+ext>`, and the lookup serves that file because its path
      string starts with the root's. */
  lemma SiblingPrefixServed(parent: seq<string>, dir: string, ext: string, file: string,
                            roots: seq<string>, files: set<string>, cwd: AbsolutePath)
    requires Clean(parent + [dir]) && Clean([dir + ext, file]) && ext != ""
    requires |roots| > 0 && roots[0] == Render(parent + [dir])
    requires Render(parent + [dir + ext, file]) in files
    ensures ServeFile(JoinWith(["..", dir + ext, file], Sep), roots, files, cwd)
            == Some(Render(parent + [dir + ext, file]))
  {
    var request := JoinWith(["..", dir + ext, file], Sep);
    SiblingCandidates(parent, dir, ext, file, files, cwd);
    assert Candidate(request, roots[0], files, cwd).Some?;
    var r := ServeFile(request, roots, files, cwd);
    var k :| 0 <= k < |roots| && r == Candidate(request, roots[k], files, cwd)
             && forall j :: 0 <= j < k ==> Candidate(request, roots[j], files, cwd).None?;
    assert k == 0;
  }

  /** Corrected: the component-wise lookup under the single root `parent/dir`
      refuses the same request whatever files exist. */
  lemma StrictRejectsSibling(parent: seq<string>, dir: string, ext: string, file: string,
                             files: set<string>, cwd: AbsolutePath)
    requires Clean(parent + [dir]) && Clean([dir + ext, file]) && ext != ""
    ensures ServeFileStrict(JoinWith(["..", dir + ext, file], Sep), [Render(parent + [dir])], files, cwd) == None
  {
    SiblingCandidates(parent, dir, ext, file, files, cwd);
  }

  /** The same escape through the fallback root: when the primary root yields
      nothing for the request, the fallback's sibling file is served. */
  lemma FallbackSiblingServed(primary: string, parent: seq<string>, dir: string, ext: string, file: string,
                              files: set<string>, cwd: AbsolutePath)
    requires Clean(parent + [dir]) && Clean([dir + ext, file]) && ext != ""
    requires Candidate(JoinWith(["..", dir + ext, file], Sep), primary, files, cwd).None?
    requires Render(parent + [dir + ext, file]) in files
    ensures ServeFile(JoinWith(["..", dir + ext, file], Sep), [primary, Render(parent + [dir])], files, cwd)
            == Some(Render(parent + [dir + ext, file]))
  {
    var request := JoinWith(["..", dir + ext, file], Sep);
    SiblingCandidates(parent, dir, ext, file, files, cwd);
    PrimaryBeforeFallback(request, primary, Render(parent + [dir]), files, cwd);
  }

  /** The default primary root "/app/output/quickchart" in component form: it
      is a root `parent/dir` with the sibling "/app/output/quickchart2" next to it. */
  lemma PrimaryRootSegments()
    ensures DefaultOutputDir == Render(["app", "output"] + ["quickchart"])
    ensures Clean(["app", "output"] + ["quickchart"]) && Clean(["quickchart" + "2", "secret"])
  {
    var segs := ["app", "output"] + ["quickchart"];
    assert segs == ["app", "output", "quickchart"] by { }
    var spelled := [Sep] + ("app" + [Sep] + ("output" + [Sep] + "quickchart"));
    assert Render(segs) == spelled by { JoinThree("app", "output", "quickchart"); }
    assert |spelled| == |DefaultOutputDir|;
    forall i | 0 <= i < |spelled| ensures spelled[i] == DefaultOutputDir[i] { }
    assert Clean(segs) by { }
    assert Clean(["quickchart" + "2", "secret"]) by { }
  }

  /** Joining three parts with the separator spells them with two separators between. */
  lemma JoinThree(a: string, b: string, c: string)
    ensures JoinWith([a, b, c], Sep) == a + [Sep] + (b + [Sep] + c)
  {
    assert [b, c][1..] == [c];
    assert JoinWith([b, c], Sep) == b + [Sep] + c;
    assert [a, b, c][1..] == [b, c];
  }

  /** The default fallback root "/tmp/quickchart" in component form: it is a
      root `parent/dir` with the sibling "/tmp/quickchart2" next to it. */
  lemma FallbackRootSegments()
    ensures DefaultFallbackDir == Render(["tmp"] + ["quickchart"])
    ensures Clean(["tmp"] + ["quickchart"]) && Clean(["quickchart" + "2", "secret"])
  {
    var segs := ["tmp"] + ["quickchart"];
    assert segs == ["tmp", "quickchart"];
    assert segs[1..] == ["quickchart"];
    assert JoinWith(segs, Sep) == "tmp" + [Sep] + "quickchart";
    assert [Sep] + ("tmp" + [Sep] + "quickchart") == DefaultFallbackDir;
  }

  /** Both lookups serve every artifact the store names itself: a plain file
      name written into the first root is found under its download path. */
  lemma StoredArtifactServed(dir: string, name: string, outputDir: string, roots: seq<string>,
                             files: set<string>, cwd: AbsolutePath)
    requires dir != "" && Clean([name]) && '\\' !in name
    requires |roots| > 0 && roots[0] == dir
    requires Abspath(Join(dir, name), cwd) in files
    ensures RelativeDownloadPath(Join(dir, name), dir, outputDir, cwd) == Some(FilesPrefix + name)
    ensures ServeFile(name, roots, files, cwd) == Some(Abspath(Join(dir, name), cwd))
    ensures ServeFileStrict(name, roots, files, cwd) == Some(Abspath(Join(dir, name), cwd))
    ensures Candidate(name, dir, files, cwd) == Some(Abspath(Join(dir, name), cwd))
    ensures StrictCandidate(name, dir, files, cwd) == Some(Abspath(Join(dir, name), cwd))
  {
    FileInDirDownloadPath(dir, name, outputDir, cwd);
    var bs := Components(dir, cwd);
    ComponentsOfFileInDir(dir, name, cwd);
    AbspathOfRender(bs, cwd);
    assert Abspath(dir, cwd) == Render(bs);
    ComponentsOfFileInDir(Render(bs), name, cwd);
    AbspathOfRender(bs + [name], cwd);
    assert bs < bs + [name];
    DescendantIsBelow(bs, bs + [name]);
    assert Render(bs) <= Render(bs + [name]);
    var target := Abspath(Join(dir, name), cwd);
    assert Candidate(name, dir, files, cwd) == Some(target);
    assert StrictCandidate(name, dir, files, cwd) == Some(target);
    var r := ServeFile(name, roots, files, cwd);
    var k :| 0 <= k < |roots| && r == Candidate(name, roots[k], files, cwd)
             && forall j :: 0 <= j < k ==> Candidate(name, roots[j], files, cwd).None?;
    assert k == 0;
    assert ServeFileStrict(name, roots, files, cwd).Some?;
  }

  /** A root that holds no file below it can only hand back, for a plain
      name, the one file added to the set. */
  lemma EmptyRootYieldsOnlyAdded(base: string, name: string, files: set<string>, added: string, cwd: AbsolutePath)
    requires Clean([name])
    requires forall f :: f in files ==> !(Components(base, cwd) < Components(f, cwd))
    ensures Candidate(name, base, files + {added}, cwd).Some? ==> Candidate(name, base, files + {added}, cwd).value == added
    ensures StrictCandidate(name, base, files + {added}, cwd).Some? ==> StrictCandidate(name, base, files + {added}, cwd).value == added
  {
    var root := Abspath(base, cwd);
    var request := Join(root, name);
    var target := Abspath(request, cwd);
    ComponentsOfFileInDir(root, name, cwd);
    assert Components(target, cwd) == Components(base, cwd) + [name];
    assert Components(base, cwd) < Components(target, cwd);
    assert target !in files;
  }

  /** An artifact stored under a plain name in the fallback root, while the
      primary root holds nothing, is served back from its download path by
      both lookups, primary first. */
  lemma FallbackArtifactServed(primary: string, fallback: string, name: string, files: set<string>, cwd: AbsolutePath)
    requires fallback != "" && Clean([name]) && '\\' !in name
    requires forall f :: f in files ==> !(Components(primary, cwd) < Components(f, cwd))
    ensures var target := Abspath(Join(fallback, name), cwd);
            var stored := files + {target};
            && RelativeDownloadPath(Join(fallback, name), fallback, primary, cwd) == Some(FilesPrefix + name)
            && ServeFile(name, [primary, fallback], stored, cwd) == Some(target)
            && ServeFileStrict(name, [primary, fallback], stored, cwd) == Some(target)
  {
    var target := Abspath(Join(fallback, name), cwd);
    var stored := files + {target};
    var roots := [primary, fallback];
    StoredArtifactServed(fallback, name, primary, [fallback], stored, cwd);
    EmptyRootYieldsOnlyAdded(primary, name, files, target, cwd);
    assert roots[0] == primary && roots[1] == fallback;
    assert ServeFile(name, roots, stored, cwd) == Some(target) by {
      var r := ServeFile(name, roots, stored, cwd);
      assert r.Some?;
      var k :| 0 <= k < |roots| && r == Candidate(name, roots[k], stored, cwd);
    }
    assert ServeFileStrict(name, roots, stored, cwd) == Some(target) by {
      var r := ServeFileStrict(name, roots, stored, cwd);
      assert r.Some?;
      assert r == FirstSome(roots, (b: string) => StrictCandidate(name, b, stored, cwd));
      var k :| 0 <= k < |roots| && StrictCandidate(name, roots[k], stored, cwd) == r;
    }
  }

  /** As written, a backslash in a stored name breaks the round trip: the file
      `dir/a\b` is reported as "/files/a/b", and that request looks for
      `dir/a/b`, so the stored file alone is not found. */
  lemma BackslashNameNotServed(dir: string, a: string, b: string, outputDir: string, cwd: AbsolutePath)
    requires dir != "" && Clean([a, b]) && '\\' !in a && '\\' !in b
    ensures var name := a + "\\" + b;
            var stored := Abspath(Join(dir, name), cwd);
            && RelativeDownloadPath(Join(dir, name), dir, outputDir, cwd) == Some(FilesPrefix + (a + "/" + b))
            && ServeFile(a + "/" + b, [dir], {stored}, cwd) == None
  {
    var name := a + "\\" + b;
    BackslashName(a, b);
    FileInDirRelpath(dir, name, outputDir, cwd);
    BackslashRequestMisses(dir, a, b, cwd);
    assert Candidate(a + "/" + b, dir, {Abspath(Join(dir, name), cwd)}, cwd).None?;
  }

  /** `a\b` is a single clean component, and replacing its backslash gives `a/b`. */
  lemma BackslashName(a: string, b: string)
    requires Clean([a, b]) && '\\' !in a && '\\' !in b
    ensures Clean([a + "\\" + b])
    ensures ReplaceChar(a + "\\" + b, '\\', '/') == a + "/" + b
  {
    var name := a + "\\" + b;
    assert a != "" && b != "" && Sep !in a && Sep !in b by {
      assert [a, b][0] == a && [a, b][1] == b;
    }
    assert Clean([name]) by {
      assert Sep !in name;
      assert |name| >= 3;
    }
    var r := ReplaceChar(name, '\\', '/');
    var want := a + "/" + b;
    forall i | 0 <= i < |want| ensures r[i] == want[i] {
      if i < |a| {
        assert name[i] == a[i] && want[i] == a[i];
      } else if i > |a| {
        assert name[i] == b[i - |a| - 1] && want[i] == b[i - |a| - 1];
      }
    }
  }

  /** The request `a/b` under `dir` resolves to `dir/a/b`, never to the stored `dir/a\b`. */
  lemma BackslashRequestMisses(dir: string, a: string, b: string, cwd: AbsolutePath)
    requires dir != "" && Clean([a, b]) && '\\' !in a && '\\' !in b
    ensures Abspath(Join(Abspath(dir, cwd), a + "/" + b), cwd) != Abspath(Join(dir, a + "\\" + b), cwd)
  {
    var name := a + "\\" + b;
    BackslashName(a, b);
    var bs := Components(dir, cwd);
    ComponentsOfFileInDir(dir, name, cwd);
    var stored := Abspath(Join(dir, name), cwd);
    assert Components(stored, cwd) == bs + [name];
    ComponentsOfJoin(bs, [a, b], cwd);
    assert JoinWith([a, b], Sep) == a + "/" + b by { assert [a, b][1..] == [b]; }
    ResolveClean(bs, [a, b], []);
    assert [a, b] + [] == [a, b];
    var target := Abspath(Join(Abspath(dir, cwd), a + "/" + b), cwd);
    assert Components(target, cwd) == bs + [a, b];
    assert |bs + [a, b]| != |bs + [name]|;
  }
}

=== FILE: text.dfy ===
/** The string operations the adapter relies on, as Python defines them:
    `str.strip`, `str.lower`, `str.upper`, single-character `str.replace`,
    `str.split` on one separator and `sep.join`. */
module Text {

  /** The characters Python's `str.isspace` accepts, so the ones `str.strip()` removes. */
  const Whitespace: string :=
    " \t\n\U{B}\U{C}\r\U{1C}\U{1D}\U{1E}\U{1F}\U{85}\U{A0}\U{1680}"
    + "\U{2000}\U{2001}\U{2002}\U{2003}\U{2004}\U{2005}\U{2006}\U{2007}\U{2008}\U{2009}\U{200A}"
    + "\U{2028}\U{2029}\U{202F}\U{205F}\U{3000}"

  /** `c` occurs in `chars`; recursive, so the solver unfolds it only on demand. */
  predicate Occurs(c: char, chars: string)
    decreases |chars|
  {
    |chars| > 0 && (chars[0] == c || Occurs(c, chars[1..]))
  }

  predicate IsSpace(c: char) {
    Occurs(c, Whitespace)
  }

  predicate AllSpace(s: string) {
    forall i :: 0 <= i < |s| ==> IsSpace(s[i])
  }

  predicate EndsWith(s: string, suffix: string) {
    |suffix| <= |s| && s[|s| - |suffix|..] == suffix
  }

  /** The first non-space position at or after `i` (or `|s|`): where
      `str.lstrip()` starts when scanning from `i`. */
  function SkipForward(s: string, i: nat): (j: nat)
    requires i <= |s|
    ensures i <= j <= |s|
    ensures forall k :: i <= k < j ==> IsSpace(s[k])
    ensures j < |s| ==> !IsSpace(s[j])
    decreases |s| - i
  {
    if i < |s| && IsSpace(s[i]) then SkipForward(s, i + 1) else i
  }

  /** The position just past the last non-space character before `j`, never
      below `lo`: where `str.rstrip()` ends when scanning back from `j`. */
  function SkipBackward(s: string, lo: nat, j: nat): (i: nat)
    requires lo <= j <= |s|
    ensures lo <= i <= j
    ensures forall k :: i <= k < j ==> IsSpace(s[k])
    ensures i > lo ==> !IsSpace(s[i - 1])
    decreases j
  {
    if j > lo && IsSpace(s[j - 1]) then SkipBackward(s, lo, j - 1) else j
  }

  /** Where the stripped text starts inside `s`. */
  function StripStart(s: string): nat {
    SkipForward(s, 0)
  }

  /** Where the stripped text ends inside `s`. */
  function StripStop(s: string): (j: nat)
    ensures StripStart(s) <= j <= |s|
  {
    SkipBackward(s, StripStart(s), |s|)
  }

  /** `str.strip()`: the contiguous middle of `s` between whitespace runs. */
  function Trim(s: string): (r: string)
    ensures r == [] <==> AllSpace(s)
    ensures r != [] ==> !IsSpace(r[0]) && !IsSpace(r[|r| - 1])
  {
    var a, b := StripStart(s), StripStop(s);
    assert a == b ==> AllSpace(s) by {
      if a == b {
        forall k | 0 <= k < |s| ensures IsSpace(s[k]) {
          if k >= a { assert k < b || k >= b; }
        }
      }
    }
    s[a..b]
  }

  /** Where the stripped text sits: between two all-whitespace runs of `s`. */
  lemma TrimSlice(s: string)
    ensures StripStart(s) <= StripStop(s) <= |s| && Trim(s) == s[StripStart(s)..StripStop(s)]
    ensures AllSpace(s[..StripStart(s)]) && AllSpace(s[StripStop(s)..])
  {
    var a, b := StripStart(s), StripStop(s);
    assert forall k :: 0 <= k < a ==> s[..a][k] == s[k];
    assert forall k :: 0 <= k < |s| - b ==> s[b..][k] == s[b + k];
  }

  /** The forward scan is pinned down by its contract: it stops at the first
      non-space position. */
  lemma SkipForwardAt(s: string, i: nat, m: nat)
    requires i <= m <= |s|
    requires forall k :: i <= k < m ==> IsSpace(s[k])
    requires m < |s| ==> !IsSpace(s[m])
    ensures SkipForward(s, i) == m
  {
  }

  /** The backward scan likewise stops just past the last non-space position. */
  lemma SkipBackwardAt(s: string, lo: nat, j: nat, m: nat)
    requires lo <= m <= j <= |s|
    requires forall k :: m <= k < j ==> IsSpace(s[k])
    requires m > lo ==> !IsSpace(s[m - 1])
    ensures SkipBackward(s, lo, j) == m
  {
  }

  /** Python's `not s.strip()`: the string is empty or whitespace only. */
  predicate IsBlank(s: string) {
    AllSpace(s)
  }

  /** Surrounding a word with whitespace does not change what `strip()` returns. */
  lemma TrimPadded(pre: string, x: string, post: string)
    requires AllSpace(pre) && AllSpace(post)
    requires x != [] && !IsSpace(x[0]) && !IsSpace(x[|x| - 1])
    ensures Trim(pre + x + post) == x
  {
    var s := pre + x + post;
    var a, b := |pre|, |pre| + |x|;
    assert forall k :: 0 <= k < a ==> s[k] == pre[k];
    assert forall k :: a <= k < b ==> s[k] == x[k - a];
    assert forall k :: b <= k < |s| ==> s[k] == post[k - b];
    SkipForwardAt(s, 0, a);
    SkipBackwardAt(s, a, |s|, b);
    assert s[a..b] == x;
  }

  /** A string with non-space ends is its own strip. */
  lemma TrimOfStripped(s: string)
    requires s != [] && !IsSpace(s[0]) && !IsSpace(s[|s| - 1])
    ensures Trim(s) == s
  {
    SkipForwardAt(s, 0, 0);
    SkipBackwardAt(s, 0, |s|, |s|);
  }

  /** Lower-casing a string without upper-case letters changes nothing. */
  lemma LowerOfLowered(s: string)
    requires forall i :: 0 <= i < |s| ==> !IsUpper(s[i])
    ensures Lower(s) == s
  {
  }

  /** Stripping is idempotent. */
  lemma TrimIdempotent(s: string)
    ensures Trim(Trim(s)) == Trim(s)
  {
    var r := Trim(s);
    if r != [] {
      TrimOfStripped(r);
    }
  }

  predicate IsUpper(c: char) {
    'A' <= c <= 'Z'
  }

  predicate IsLower(c: char) {
    'a' <= c <= 'z'
  }

  /** `str.lower()` on one character (ASCII letters only). */
  function LowerChar(c: char): (d: char)
    ensures !IsUpper(d)
    ensures IsUpper(c) ==> IsLower(d) && d as int - c as int == 32
    ensures !IsUpper(c) ==> d == c
  {
    if IsUpper(c) then (c as int + 32) as char else c
  }

  /** `str.upper()` on one character (ASCII letters only). */
  function UpperChar(c: char): (d: char)
    ensures !IsLower(d)
    ensures IsLower(c) ==> IsUpper(d) && c as int - d as int == 32
    ensures !IsLower(c) ==> d == c
  {
    if IsLower(c) then (c as int - 32) as char else c
  }

  /** `str.lower()`: every character mapped by `LowerChar`, length kept. */
  function Lower(s: string): (r: string)
    ensures |r| == |s|
    ensures forall i :: 0 <= i < |s| ==> r[i] == LowerChar(s[i])
  {
    if s == [] then [] else [LowerChar(s[0])] + Lower(s[1..])
  }

  /** `str.upper()`: every character mapped by `UpperChar`, length kept. */
  function Upper(s: string): (r: string)
    ensures |r| == |s|
    ensures forall i :: 0 <= i < |s| ==> r[i] == UpperChar(s[i])
  {
    if s == [] then [] else [UpperChar(s[0])] + Upper(s[1..])
  }

  lemma {:induction false} OccursAmong(c: char, chars: string)
    requires Occurs(c, chars)
    ensures exists k :: 0 <= k < |chars| && chars[k] == c
    decreases |chars|
  {
    if chars[0] != c {
      OccursAmong(c, chars[1..]);
      var k :| 0 <= k < |chars[1..]| && chars[1..][k] == c;
      assert chars[k + 1] == c;
    }
  }

  /** Printable ASCII characters (letters, digits, punctuation).  */
  predicate IsPrintableAscii(c: char) {
    '!' <= c <= '~'
  }

  /** No printable ASCII character is whitespace, so in particular changing the
      case of a letter never creates or removes whitespace. */
  lemma SpaceIsNotPrintable(c: char)
    ensures IsSpace(c) ==> !IsPrintableAscii(c)
  {
    if IsSpace(c) {
      OccursAmong(c, Whitespace);
      assert forall k :: 0 <= k < |Whitespace| ==> !IsPrintableAscii(Whitespace[k]);
    }
  }

  /** Lower-casing twice is lower-casing once. */
  lemma LowerIdempotent(s: string)
    ensures Lower(Lower(s)) == Lower(s)
  {
    var t := Lower(s);
    assert forall i :: 0 <= i < |t| ==> Lower(t)[i] == t[i];
  }

  /** Lower-casing leaves whitespace exactly where it was. */
  lemma LowerKeepsSpace(s: string)
    ensures forall i :: 0 <= i < |s| ==> (IsSpace(Lower(s)[i]) <==> IsSpace(s[i]))
  {
    forall i | 0 <= i < |s| ensures IsSpace(Lower(s)[i]) <==> IsSpace(s[i]) {
      SpaceIsNotPrintable(s[i]);
      SpaceIsNotPrintable(Lower(s)[i]);
    }
  }

  /** `s.replace(from, to)` for single characters. */
  function ReplaceChar(s: string, from: char, to: char): (r: string)
    ensures |r| == |s|
    ensures forall i :: 0 <= i < |s| ==> r[i] == (if s[i] == from then to else s[i])
    ensures from != to ==> from !in r
  {
    if s == [] then []
    else [if s[0] == from then to else s[0]] + ReplaceChar(s[1..], from, to)
  }

  /** `s.split(sep)`: always at least one part, and no part holds `sep`. */
  function Split(s: string, sep: char): (r: seq<string>)
    ensures |r| >= 1
    ensures forall k :: 0 <= k < |r| ==> sep !in r[k]
  {
    if s == [] then [""]
    else
      var rest := Split(s[1..], sep);
      if s[0] == sep then [""] + rest
      else [[s[0]] + rest[0]] + rest[1..]
  }

  /** `sep.join(parts)`. */
  function JoinWith(parts: seq<string>, sep: char): string {
    if |parts| == 0 then ""
    else if |parts| == 1 then parts[0]
    else parts[0] + [sep] + JoinWith(parts[1..], sep)
  }

  /** `r` is what follows the last separator in `s`: a suffix free of the
      separator, preceded by one unless it is all of `s`. */
  predicate FollowsLastSep(s: string, sep: char, r: string) {
    && sep !in r
    && EndsWith(s, r)
    && (|r| < |s| ==> s[|s| - |r| - 1] == sep)
  }

  /** The last part of `s.split(sep)` (Python's `s.split(sep)[-1]`). */
  function LastPart(s: string, sep: char): (r: string)
    ensures FollowsLastSep(s, sep, r)
    ensures sep !in s ==> r == s
  {
    if s == [] then ""
    else if s[|s| - 1] == sep then ""
    else
      var r := LastPart(s[..|s| - 1], sep);
      assert (s[..|s| - 1] + [s[|s| - 1]]) == s;
      r + [s[|s| - 1]]
  }

  /** The last part after a separator is everything behind its last occurrence. */
  lemma {:induction false} LastPartAfter(a: string, t: string, sep: char)
    requires sep !in t
    ensures LastPart(a + [sep] + t, sep) == t
    decreases |t|
  {
    var s := a + [sep] + t;
    if t != [] {
      var t' := t[..|t| - 1];
      assert s[..|s| - 1] == a + [sep] + t';
      assert sep !in t' by {
        assert forall k :: 0 <= k < |t'| ==> t'[k] == t[k];
      }
      LastPartAfter(a, t', sep);
      assert t' + [t[|t| - 1]] == t;
    }
  }

  /** The last part is determined by its three properties: free of the
      separator, a suffix, and preceded by a separator unless it is all of `s`. */
  lemma LastPartUnique(s: string, sep: char, r: string)
    requires FollowsLastSep(s, sep, r)
    ensures r == LastPart(s, sep)
  {
    var p := LastPart(s, sep);
    if |r| < |p| {
      SuffixBefore(s, p, r);
      assert false;
    }
    if |p| < |r| {
      SuffixBefore(s, r, p);
      assert false;
    }
  }

  /** Of two suffixes, the longer one holds the character just before the shorter one. */
  lemma SuffixBefore(s: string, long: string, short: string)
    requires EndsWith(s, long) && EndsWith(s, short) && |short| < |long|
    ensures long[|long| - |short| - 1] == s[|s| - |short| - 1]
  {
    assert long == s[|s| - |long|..];
  }

  /** The last part of a split is a suffix of the input, preceded by a
      separator unless it is the whole input, which it can only be when
      there is a single part. */
  lemma {:induction false} SplitLast(s: string, sep: char)
    ensures var parts := Split(s, sep);
            var l := parts[|parts| - 1];
            && FollowsLastSep(s, sep, l)
            && (|parts| > 1 ==> |l| < |s|)
            && (|parts| == 1 ==> l == s)
    decreases |s|
  {
    if s == [] {
      assert Split(s, sep) == [""];
    } else {
      var c, t := s[0], s[1..];
      assert s == [c] + t;
      SplitLast(t, sep);
      SplitCons(c, t, sep);
      var rest := Split(t, sep);
      var l := rest[|rest| - 1];
      var parts := Split(s, sep);
      if c == sep || |rest| > 1 {
        assert |parts| > 1 && parts[|parts| - 1] == l;
        assert |l| <= |t| < |s|;
        LastSepCons(c, t, sep, l);
      } else {
        assert rest == [t];
        assert parts == [s];
        WholeFollows(c, t, sep);
      }
    }
  }

  /** A text without separators is its own last part. */
  lemma WholeFollows(c: char, t: string, sep: char)
    requires c != sep && sep !in t
    ensures FollowsLastSep([c] + t, sep, [c] + t)
  {
  }

  /** `split` of a text with one more character in front. */
  lemma SplitCons(c: char, t: string, sep: char)
    ensures var rest := Split(t, sep);
            Split([c] + t, sep) == if c == sep then [""] + rest else [[c] + rest[0]] + rest[1..]
  {
    assert ([c] + t)[1..] == t;
  }

  /** Putting a character in front keeps what follows the last separator,
      unless that was the whole text and the character is no separator. */
  lemma LastSepCons(c: char, t: string, sep: char, l: string)
    requires FollowsLastSep(t, sep, l) && (|l| < |t| || c == sep)
    ensures FollowsLastSep([c] + t, sep, l)
  {
    var s := [c] + t;
    assert s[|s| - |l|..] == t[|t| - |l|..];
  }


  /** `LastPart` is Python's `s.split(sep)[-1]`. */
  lemma LastPartOfSplit(s: string, sep: char)
    ensures LastPart(s, sep) == Split(s, sep)[|Split(s, sep)| - 1]
  {
    var parts := Split(s, sep);
    var l := parts[|parts| - 1];
    SplitLast(s, sep);
    LastPartUnique(s, sep, l);
  }

  /** Splitting at a separator splits the two sides independently. */
  lemma {:induction false} SplitAppend(a: string, b: string, sep: char)
    ensures Split(a + [sep] + b, sep) == Split(a, sep) + Split(b, sep)
    decreases |a|
  {
    var s := a + [sep] + b;
    if a == [] {
      assert s == [sep] + b;
      assert s[1..] == b;
    } else {
      assert s[1..] == a[1..] + [sep] + b;
      SplitAppend(a[1..], b, sep);
    }
  }

  lemma {:induction false} SplitNoSep(a: string, sep: char)
    requires sep !in a
    ensures Split(a, sep) == [a]
    decreases |a|
  {
    if a != [] {
      SplitNoSep(a[1..], sep);
      assert [a[0]] + a[1..] == a;
    }
  }

  /** Splitting a joined list of separator-free parts gives the parts back. */
  lemma {:induction false} SplitJoin(parts: seq<string>, sep: char)
    requires |parts| >= 1
    requires forall k :: 0 <= k < |parts| ==> sep !in parts[k]
    ensures Split(JoinWith(parts, sep), sep) == parts
    decreases |parts|
  {
    if |parts| == 1 {
      SplitNoSep(parts[0], sep);
    } else {
      SplitJoin(parts[1..], sep);
      SplitAppend(parts[0], JoinWith(parts[1..], sep), sep);
      SplitNoSep(parts[0], sep);
      assert [parts[0]] + parts[1..] == parts;
    }
  }

  /** Joining two non-empty lists puts one separator between their joins. */
  lemma {:induction false} JoinWithAppend(a: seq<string>, b: seq<string>, sep: char)
    requires |a| >= 1 && |b| >= 1
    ensures JoinWith(a + b, sep) == JoinWith(a, sep) + [sep] + JoinWith(b, sep)
    decreases |a|
  {
    if |a| == 1 {
      assert (a + b)[1..] == b;
    } else {
      assert (a + b)[1..] == a[1..] + b;
      JoinWithAppend(a[1..], b, sep);
    }
  }

  /** A join ends with its last part. */
  lemma {:induction false} JoinWithLast(parts: seq<string>, sep: char)
    requires |parts| >= 1
    ensures EndsWith(JoinWith(parts, sep), parts[|parts| - 1])
    decreases |parts|
  {
    if |parts| > 1 {
      JoinWithLast(parts[1..], sep);
    }
  }

  /** A character other than the separator occurs in a join exactly when it
      occurs in one of the parts. */
  lemma {:induction false} JoinWithAvoids(parts: seq<string>, sep: char, c: char)
    requires c != sep
    ensures c !in JoinWith(parts, sep) <==> forall k :: 0 <= k < |parts| ==> c !in parts[k]
    decreases |parts|
  {
    if |parts| > 1 {
      JoinWithAvoids(parts[1..], sep, c);
      assert forall k :: 1 <= k < |parts| ==> parts[k] == parts[1..][k - 1];
    }
  }

  /** Replacing a character that does not occur changes nothing. */
  lemma ReplaceAbsent(s: string, from: char, to: char)
    requires from !in s
    ensures ReplaceChar(s, from, to) == s
  {
  }

  /** A join starts with its first part. */
  lemma JoinWithFirst(parts: seq<string>, sep: char)
    requires |parts| >= 1
    ensures parts[0] <= JoinWith(parts, sep)
  {
  }
}

=== FILE: tool_properties.dfy ===
/** What the rendering tools promise beyond the contracts of their request
    builders: the output format and extension, the request each tool issues,
    and that a delivered artifact can be downloaded back. */
module ToolProperties {
  import opened Wrappers
  import opened Text
  import opened Numbers
  import opened Errors
  import opened Validation
  import opened Paths
  import opened Artifacts
  import opened Serve
  import opened Tools

  // ---------------------------------------------------------------------------
  // Output format and MIME type

  /** Normalising a normalised format changes nothing. */
  lemma NormalizeFormatIdempotent(format: string)
    ensures NormalizeFormat(NormalizeFormat(format)) == NormalizeFormat(format)
  {
    var fmt := NormalizeFormat(format);
    TrimOfStripped(fmt);
    LowerOfLowered(fmt);
  }

  /** The format argument is case-insensitive and surrounding whitespace is ignored. */
  lemma NormalizeFormatPadded(pre: string, word: string, post: string)
    requires AllSpace(pre) && AllSpace(post)
    requires word != [] && !IsSpace(word[0]) && !IsSpace(word[|word| - 1])
    ensures NormalizeFormat(pre + word + post) == Lower(word)
  {
    TrimPadded(pre, word, post);
  }

  /** A blank format renders PNG, reported as `image/png`, whichever tool is asked. */
  lemma BlankFormatIsPng(req: Request)
    requires req.QrCode? || IsBlank(req.format)
    ensures FormatOf(req) == "png"
    ensures MimeFor(FormatOf(req), Formats(req)) == "image/png"
  {
    assert "png" in Formats(req);
    assert "image/" + "png" == "image/png";
  }

  /** Graphviz reports SVG output as `image/svg`. */
  lemma GraphvizSvgMime(graph: string, layout: string, format: string, saveAs: string,
                        includeBase64: string, parse: JsonParser)
    requires !IsBlank(graph) && NormalizeFormat(format) == "svg"
    ensures BuildJob(Graphviz(graph, layout, format, saveAs, includeBase64), parse).Success?
    ensures BuildJob(Graphviz(graph, layout, format, saveAs, includeBase64), parse).value.mime == "image/svg"
  {
    var req := Graphviz(graph, layout, format, saveAs, includeBase64);
    assert RequestBody(req, parse).Success?;
    assert FormatOf(req) == "svg" && Formats(req) == GraphvizFormats;
    SvgMime();
  }

  lemma SvgMime()
    ensures MimeFor("svg", GraphvizFormats) == "image/svg"
  {
    assert "svg" in GraphvizFormats;
    assert "image/" + "svg" == "image/svg";
  }

  /** The chart tool has no SVG on its allowlist: the same format is reported
      as generic bytes. */
  lemma ChartSvgIsGeneric(config: string, width: string, height: string, format: string,
                          background: string, saveAs: string, includeBase64: string, parse: JsonParser)
    requires BuildJob(Chart(config, width, height, format, background, saveAs, includeBase64), parse).Success?
    requires NormalizeFormat(format) == "svg"
    ensures BuildJob(Chart(config, width, height, format, background, saveAs, includeBase64), parse).value.mime
            == "application/octet-stream"
  {
    assert "svg" !in ChartFormats;
  }

  /** The generic MIME type ends in "octet-stream". */
  lemma OctetExtension()
    ensures LastPart(OctetStream, Sep) == "octet-stream"
    ensures '\\' !in "octet-stream"
  {
    LastPartAfter("application", "octet-stream", Sep);
  }

  /** The extension a generated file name takes from the MIME type is the
      format itself for an allowed format, and "octet-stream" otherwise. */
  lemma MimeExtension(fmt: string, allowed: set<string>)
    requires Sep !in fmt
    ensures LastPart(MimeFor(fmt, allowed), Sep) == if fmt in allowed then fmt else "octet-stream"
  {
    if fmt in allowed {
      LastPartAfter("image", fmt, Sep);
    } else {
      OctetExtension();
    }
  }

  /** Every allowlisted format is a plain word without path separators. */
  lemma AllowedFormatsArePlain(req: Request, fmt: string)
    requires fmt in Formats(req)
    ensures Sep !in fmt && '\\' !in fmt
  {
    assert fmt == "png" || fmt == "jpeg" || fmt == "jpg" || fmt == "webp" || fmt == "svg";
  }

  /** The extension of a generated name never carries a backslash. */
  lemma ExtensionIsPlain(req: Request)
    ensures '\\' !in LastPart(MimeFor(FormatOf(req), Formats(req)), Sep)
  {
    var fmt := FormatOf(req);
    var allowed := Formats(req);
    if fmt in allowed {
      AllowedFormatsArePlain(req, fmt);
      MimeExtension(fmt, allowed);
    } else {
      assert MimeFor(fmt, allowed) == OctetStream;
      OctetExtension();
    }
  }

  // ---------------------------------------------------------------------------
  // The request each tool issues

  /** `render_graphviz`: "graph" carries the definition, "layout" the option, POST to /graphviz. */
  lemma GraphvizRequest(graph: string, layout: string, format: string, saveAs: string,
                        includeBase64: string, parse: JsonParser)
    ensures var r := BuildJob(Graphviz(graph, layout, format, saveAs, includeBase64), parse);
            && (r.Failure? <==> IsBlank(graph))
            && (r.Failure? ==> r.error == MissingInput("graph definition"))
            && (r.Success? ==> r.value.job.verb == Post && r.value.job.endpoint == "/graphviz"
                               && GraphKey in r.value.job.body && r.value.job.body[GraphKey] == TextValue(graph)
                               && (LayoutKey in r.value.job.body <==> !IsBlank(layout)))
  {
  }

  /** `render_mermaid`: "chart" carries the definition, "theme" the option, POST to /mermaid. */
  lemma MermaidRequest(mermaid: string, theme: string, format: string, saveAs: string,
                       includeBase64: string, parse: JsonParser)
    ensures var r := BuildJob(Mermaid(mermaid, theme, format, saveAs, includeBase64), parse);
            && (r.Failure? <==> IsBlank(mermaid))
            && (r.Failure? ==> r.error == MissingInput("mermaid definition"))
            && (r.Success? ==> r.value.job.verb == Post && r.value.job.endpoint == "/mermaid"
                               && ChartKey in r.value.job.body && r.value.job.body[ChartKey] == TextValue(mermaid)
                               && (ThemeKey in r.value.job.body <==> !IsBlank(theme)))
  {
  }

  /** The QR tool always issues a GET to /qr and reports PNG. */
  lemma QrRequest(text: string, size: string, correction: string, saveAs: string,
                  includeBase64: string, parse: JsonParser)
    requires BuildJob(QrCode(text, size, correction, saveAs, includeBase64), parse).Success?
    ensures var plan := BuildJob(QrCode(text, size, correction, saveAs, includeBase64), parse).value;
            plan.job.verb == Get && plan.job.endpoint == "/qr" && plan.mime == "image/png"
  {
  }

  // ---------------------------------------------------------------------------
  // Whole invocations

  /** A request that fails validation never reaches the remote service, and
      the remote reply is irrelevant to its report. */
  lemma InvalidRequestIgnoresRemote(req: Request, env1: Env, env2: Env)
    requires env1.parse == env2.parse && env1.store == env2.store
    requires BuildJob(req, env1.parse).Failure?
    ensures Invoke(req, env1) == Invoke(req, env2)
    ensures Invoke(req, env1).issued == None && Invoke(req, env1).report.Failed?
  {
  }

  /** A delivery of zero bytes is only a warning: nothing is saved and no
      download path is reported. */
  lemma EmptyDeliveryWarns(req: Request, env: Env)
    requires BuildJob(req, env.parse).Success?
    requires env.remote(BuildJob(req, env.parse).value.job) == Delivered([])
    ensures Invoke(req, env).report == EmptyPayload(Summary(req))
  {
  }

  /** A non-empty delivery is always saved, with exactly the delivered bytes
      and the MIME type of the tool's format. */
  lemma NonEmptyDeliveryIsSaved(req: Request, env: Env)
    requires BuildJob(req, env.parse).Success?
    requires env.remote(BuildJob(req, env.parse).value.job).Delivered?
    requires |env.remote(BuildJob(req, env.parse).value.job).payload| > 0
    ensures Invoke(req, env).report.Saved?
    ensures Invoke(req, env).report.content == env.remote(BuildJob(req, env.parse).value.job).payload
    ensures Invoke(req, env).report.mime == MimeFor(FormatOf(req), Formats(req))
  {
  }

  /** A delivered non-empty payload without an explicit name is saved under
      a generated name in the primary directory when that can be created. */
  lemma DeliveredReport(req: Request, env: Env)
    requires BuildJob(req, env.parse).Success?
    requires env.remote(BuildJob(req, env.parse).value.job).Delivered?
    requires |env.remote(BuildJob(req, env.parse).value.job).payload| > 0
    requires IsBlank(req.saveAs)
    requires env.store.primary in env.store.creatable
    ensures var report := Invoke(req, env).report;
            var name := GenerateFilename(Prefix(req), LastPart(BuildJob(req, env.parse).value.mime, Sep), env.store.stamp);
            && report.Saved?
            && report.path == Join(env.store.primary, name)
            && report.download == RelativeDownloadPath(report.path, env.store.primary, env.store.primary, env.store.cwd)
  {
    var plan := BuildJob(req, env.parse).value;
    var store := env.store;
    var name := GenerateFilename(Prefix(req), LastPart(plan.mime, Sep), store.stamp);
    assert ArtifactName(plan.mime, Prefix(req), req.saveAs, store.stamp) == name;
    assert Invoke(req, env).report
           == FormatBinaryResponse(env.remote(plan.job).payload, plan.mime, Summary(req), Prefix(req),
                                   req.saveAs, req.includeBase64, store);
    assert ChooseOutputDir(store.primary, store.fallback, store.creatable) == store.primary;
  }

  /** A delivered non-empty payload, stored under a generated name in a
      creatable primary directory, is reported with a download path that
      both the as-written and the corrected file route serve back. */
  lemma DeliveredArtifactIsServed(req: Request, env: Env, files: set<string>)
    requires BuildJob(req, env.parse).Success?
    requires env.remote(BuildJob(req, env.parse).value.job).Delivered?
    requires |env.remote(BuildJob(req, env.parse).value.job).payload| > 0
    requires IsBlank(req.saveAs)
    requires env.store.primary != "" && env.store.primary in env.store.creatable
    requires Sep !in env.store.stamp && '\\' !in env.store.stamp
    ensures Invoke(req, env).report.Saved?
    ensures Invoke(req, env).report.download.Some?
    ensures var report := Invoke(req, env).report;
            var stored := files + {Abspath(report.path, env.store.cwd)};
            var name := report.download.value[|FilesPrefix|..];
            && FilesPrefix <= report.download.value
            && ServeFile(name, [env.store.primary, env.store.fallback], stored, env.store.cwd)
               == Some(Abspath(report.path, env.store.cwd))
            && ServeFileStrict(name, [env.store.primary, env.store.fallback], stored, env.store.cwd)
               == Some(Abspath(report.path, env.store.cwd))
  {
    var store := env.store;
    var ext := LastPart(BuildJob(req, env.parse).value.mime, Sep);
    ExtensionIsPlain(req);
    var name := GenerateFilename(Prefix(req), ext, store.stamp);
    GeneratedNameIsPlain(Prefix(req), ext, store.stamp);
    DeliveredReport(req, env);
    var report := Invoke(req, env).report;
    var stored := files + {Abspath(report.path, store.cwd)};
    var roots := [store.primary, store.fallback];
    StoredArtifactServed(store.primary, name, store.primary, roots, stored, store.cwd);
    assert (FilesPrefix + name)[|FilesPrefix|..] == name;
  }

  /** A delivered non-empty payload without an explicit name is saved under
      a generated name in the fallback directory when the primary cannot be created. */
  lemma DeliveredFallbackReport(req: Request, env: Env)
    requires BuildJob(req, env.parse).Success?
    requires env.remote(BuildJob(req, env.parse).value.job).Delivered?
    requires |env.remote(BuildJob(req, env.parse).value.job).payload| > 0
    requires IsBlank(req.saveAs)
    requires env.store.primary !in env.store.creatable
    ensures var report := Invoke(req, env).report;
            var name := GenerateFilename(Prefix(req), LastPart(BuildJob(req, env.parse).value.mime, Sep), env.store.stamp);
            && report.Saved?
            && report.path == Join(env.store.fallback, name)
            && report.download == RelativeDownloadPath(report.path, env.store.fallback, env.store.primary, env.store.cwd)
  {
    var plan := BuildJob(req, env.parse).value;
    var store := env.store;
    var name := GenerateFilename(Prefix(req), LastPart(plan.mime, Sep), store.stamp);
    assert ArtifactName(plan.mime, Prefix(req), req.saveAs, store.stamp) == name;
    assert Invoke(req, env).report
           == FormatBinaryResponse(env.remote(plan.job).payload, plan.mime, Summary(req), Prefix(req),
                                   req.saveAs, req.includeBase64, store);
    assert ChooseOutputDir(store.primary, store.fallback, store.creatable) == store.fallback;
  }

  /** When the primary directory cannot be created, a delivered payload is
      stored under a generated name in the fallback; provided the primary holds
      no file, its download path is served back by both file routes, which
      look in the primary first. */
  lemma DeliveredFallbackArtifactIsServed(req: Request, env: Env, files: set<string>)
    requires BuildJob(req, env.parse).Success?
    requires env.remote(BuildJob(req, env.parse).value.job).Delivered?
    requires |env.remote(BuildJob(req, env.parse).value.job).payload| > 0
    requires IsBlank(req.saveAs)
    requires env.store.primary !in env.store.creatable && env.store.fallback != ""
    requires Sep !in env.store.stamp && '\\' !in env.store.stamp
    requires forall f :: f in files ==> !(Components(env.store.primary, env.store.cwd) < Components(f, env.store.cwd))
    ensures Invoke(req, env).report.Saved?
    ensures Invoke(req, env).report.download.Some?
    ensures FilesPrefix <= Invoke(req, env).report.download.value
    ensures var report := Invoke(req, env).report;
            var stored := files + {Abspath(report.path, env.store.cwd)};
            var name := report.download.value[|FilesPrefix|..];
            && report.path == Join(env.store.fallback, name)
            && ServeFile(name, [env.store.primary, env.store.fallback], stored, env.store.cwd)
               == Some(Abspath(report.path, env.store.cwd))
            && ServeFileStrict(name, [env.store.primary, env.store.fallback], stored, env.store.cwd)
               == Some(Abspath(report.path, env.store.cwd))
  {
    var store := env.store;
    var ext := LastPart(BuildJob(req, env.parse).value.mime, Sep);
    ExtensionIsPlain(req);
    var name := GenerateFilename(Prefix(req), ext, store.stamp);
    GeneratedNameIsPlain(Prefix(req), ext, store.stamp);
    DeliveredFallbackReport(req, env);
    FallbackArtifactServed(store.primary, store.fallback, name, files, store.cwd);
    assert (FilesPrefix + name)[|FilesPrefix|..] == name;
  }
}

=== FILE: tools.dfy ===
/** The five rendering tools the adapter exposes (`render_chart`,
    `render_graphviz`, `render_mermaid`, `render_qrcode`, `render_wordcloud`).
    Each validates its textual arguments, builds one request for the remote
    QuickChart service, and turns the reply into a stored artifact or a
    failure. The remote service is a parameter: a function from the request
    that was issued to the reply it produced. */
module Tools {
  import opened Wrappers
  import opened Text
  import opened Numbers
  import opened Errors
  import opened Validation
  import opened Paths
  import opened Artifacts

  /** The arguments of one invocation as the agent supplies them; an absent
      argument arrives as its default ("png" for `format`, "" otherwise). */
  datatype Request =
    | Chart(config: string, width: string, height: string, format: string, background: string,
            saveAs: string, includeBase64: string)
    | Graphviz(graph: string, layout: string, format: string, saveAs: string, includeBase64: string)
    | Mermaid(mermaid: string, theme: string, format: string, saveAs: string, includeBase64: string)
    | QrCode(text: string, size: string, correction: string, saveAs: string, includeBase64: string)
    | WordCloud(words: string, format: string, width: string, height: string,
                saveAs: string, includeBase64: string)

  datatype Method = Post | Get

  /** A value in a request body (POST) or query (GET). */
  datatype Value = JsonValue(json: Json) | IntValue(number: int) | TextValue(content: string)

  /** The keys that appear in request bodies and queries. */
  datatype Field =
    | ChartKey | WidthKey | HeightKey | BackgroundKey | FormatKey | GraphKey | LayoutKey
    | ThemeKey | TextKey | SizeKey | EcLevelKey | WeightsKey

  /** The key as it is spelled on the wire. */
  function WireName(f: Field): string {
    match f
    case ChartKey => "chart"
    case WidthKey => "width"
    case HeightKey => "height"
    case BackgroundKey => "backgroundColor"
    case FormatKey => "format"
    case GraphKey => "graph"
    case LayoutKey => "layout"
    case ThemeKey => "theme"
    case TextKey => "text"
    case SizeKey => "size"
    case EcLevelKey => "ecLevel"
    case WeightsKey => "weights"
  }

  type Body = map<Field, Value>

  /** One call to the remote service: HTTP method, endpoint path, body or query
      parameters, and the noun used in its error message. */
  datatype RenderJob = RenderJob(verb: Method, endpoint: string, body: Body, expected: string)

  /** What the remote call produced: the payload of a 2xx reply, an HTTP error
      status, or a transport failure (timeout, connection error) with its text. */
  datatype RemoteReply = Delivered(payload: seq<byte>) | HttpStatus(code: int) | TransportFailure(detail: string)

  /** A validated request: the call to issue and the MIME type to report. */
  datatype Plan = Plan(job: RenderJob, mime: string)

  /** The surroundings of one invocation. */
  datatype Env = Env(parse: JsonParser, remote: RenderJob -> RemoteReply, store: Store)

  /** The outcome of one invocation: the report, and the remote call if one was made. */
  datatype Invocation = Invocation(report: Report, issued: Option<RenderJob>)

  const ChartFormats: set<string> := {"png", "jpeg", "jpg", "webp"}
  const GraphvizFormats: set<string> := {"png", "jpeg", "jpg", "svg"}
  const MermaidFormats: set<string> := {"png", "svg"}
  const WordCloudFormats: set<string> := {"png", "jpeg", "jpg"}
  const QrFormats: set<string> := {"png"}
  /** A MIME type `kind/sub`. */
  function MimeType(kind: string, sub: string): string {
    kind + [Sep] + sub
  }

  const OctetStream: string := MimeType("application", "octet-stream")

  function Endpoint(req: Request): string {
    match req
    case Chart(_, _, _, _, _, _, _) => "/chart"
    case Graphviz(_, _, _, _, _) => "/graphviz"
    case Mermaid(_, _, _, _, _) => "/mermaid"
    case QrCode(_, _, _, _, _) => "/qr"
    case WordCloud(_, _, _, _, _, _) => "/wordcloud"
  }

  /** The noun in "while generating …". */
  function Expected(req: Request): string {
    match req
    case Chart(_, _, _, _, _, _, _) => "chart"
    case Graphviz(_, _, _, _, _) => "graphviz"
    case Mermaid(_, _, _, _, _) => "mermaid"
    case QrCode(_, _, _, _, _) => "QR code"
    case WordCloud(_, _, _, _, _, _) => "word cloud"
  }

  /** The prefix of generated file names. */
  function Prefix(req: Request): string {
    match req
    case Chart(_, _, _, _, _, _, _) => "chart"
    case Graphviz(_, _, _, _, _) => "graphviz"
    case Mermaid(_, _, _, _, _) => "mermaid"
    case QrCode(_, _, _, _, _) => "qrcode"
    case WordCloud(_, _, _, _, _, _) => "wordcloud"
  }

  function Summary(req: Request): string {
    match req
    case Chart(_, _, _, _, _, _, _) => "Chart rendered via QuickChart."
    case Graphviz(_, _, _, _, _) => "Graphviz diagram rendered via QuickChart."
    case Mermaid(_, _, _, _, _) => "Mermaid diagram rendered via QuickChart."
    case QrCode(_, _, _, _, _) => "QR code generated via QuickChart."
    case WordCloud(_, _, _, _, _, _) => "Word cloud generated via QuickChart."
  }

  /** The formats reported with an `image/…` MIME type. */
  function Formats(req: Request): set<string> {
    match req
    case Chart(_, _, _, _, _, _, _) => ChartFormats
    case Graphviz(_, _, _, _, _) => GraphvizFormats
    case Mermaid(_, _, _, _, _) => MermaidFormats
    case QrCode(_, _, _, _, _) => QrFormats
    case WordCloud(_, _, _, _, _, _) => WordCloudFormats
  }

  /** The output format: the stripped, lower-cased argument, "png" when blank. */
  function NormalizeFormat(format: string): (fmt: string)
    ensures fmt != []
    ensures !IsSpace(fmt[0]) && !IsSpace(fmt[|fmt| - 1])
    ensures forall i :: 0 <= i < |fmt| ==> !IsUpper(fmt[i])
    ensures IsBlank(format) ==> fmt == "png"
    ensures !IsBlank(format) ==> fmt == Lower(Trim(format))
  {
    var f := Lower(Trim(format));
    LowerKeepsSpace(Trim(format));
    SpaceIsNotPrintable('p');
    SpaceIsNotPrintable('g');
    if f == [] then "png" else f
  }

  /** The format a request renders to; the QR tool always produces PNG. */
  function FormatOf(req: Request): string {
    if req.QrCode? then "png" else NormalizeFormat(req.format)
  }

  /** The reported MIME type: `image/<fmt>` for an allowed format, else generic bytes. */
  function MimeFor(fmt: string, allowed: set<string>): (mime: string)
    ensures mime == if fmt in allowed then "image/" + fmt else "application/octet-stream"
    ensures "image/" <= mime <==> fmt in allowed
  {
    if fmt in allowed then
      assert "image" + [Sep] == "image/";
      MimeType("image", fmt)
    else
      assert OctetStream == "application/octet-stream";
      assert OctetStream[0] != "image/"[0];
      OctetStream
  }

  /** Adds an integer entry when a value is present. */
  function WithInt(body: Body, key: Field, v: Option<int>): (r: Body)
    ensures r.Keys == if v.Some? then body.Keys + {key} else body.Keys
    ensures v.Some? ==> r[key] == IntValue(v.value)
    ensures forall k :: k in body && k != key ==> r[k] == body[k]
  {
    if v.Some? then body[key := IntValue(v.value)] else body
  }

  /** Adds the stripped text when it is not blank. */
  function WithText(body: Body, key: Field, raw: string): (r: Body)
    ensures r.Keys == if IsBlank(raw) then body.Keys else body.Keys + {key}
    ensures !IsBlank(raw) ==> r[key] == TextValue(Trim(raw))
    ensures forall k :: k in body && k != key ==> r[k] == body[k]
  {
    if IsBlank(raw) then body else body[key := TextValue(Trim(raw))]
  }

  /** A dimension entry as the tools send it: present exactly when the text
      is not blank, and then the positive integer its stripped text spells. */
  predicate DimensionSent(body: Body, key: Field, raw: string) {
    && (key in body <==> !IsBlank(raw))
    && (key in body ==> body[key].IntValue? && body[key].number > 0
                        && ParseInt(Trim(raw)) == Some(body[key].number))
  }

  /** An optional text entry: present exactly when the text is not blank, and
      then the stripped text. */
  predicate TextSent(body: Body, key: Field, raw: string) {
    && (key in body <==> !IsBlank(raw))
    && (key in body ==> body[key] == TextValue(Trim(raw)))
  }

  /** A body entry holding exactly the validated dimension is a dimension as sent. */
  lemma SentDimension(body: Body, key: Field, raw: string, field: string)
    requires ValidateDimension(raw, field).Success?
    requires key in body <==> ValidateDimension(raw, field).value.Some?
    requires key in body ==> body[key] == IntValue(ValidateDimension(raw, field).value.value)
    ensures DimensionSent(body, key, raw)
  {
    DimensionOutcome(raw, field);
  }

  /** The chart body assembled from validated parts, in the order the tool
      writes them: chart, width, height, background, format. */
  function ChartFields(chart: Json, w: Option<int>, h: Option<int>, background: string, format: string): (b: Body)
    ensures b.Keys <= {ChartKey, WidthKey, HeightKey, BackgroundKey, FormatKey}
    ensures ChartKey in b && b[ChartKey] == JsonValue(chart)
    ensures FormatKey in b && b[FormatKey] == TextValue(NormalizeFormat(format))
    ensures TextSent(b, BackgroundKey, background)
    ensures (WidthKey in b <==> w.Some?) && (w.Some? ==> b[WidthKey] == IntValue(w.value))
    ensures (HeightKey in b <==> h.Some?) && (h.Some? ==> b[HeightKey] == IntValue(h.value))
  {
    var b := WithText(WithInt(WithInt(map[ChartKey := JsonValue(chart)], WidthKey, w), HeightKey, h),
                      BackgroundKey, background);
    b[FormatKey := TextValue(NormalizeFormat(format))]
  }

  /** The body of `render_chart`: config first, then width, then height. */
  function ChartBody(config: string, width: string, height: string, format: string, background: string,
                     parse: JsonParser): (r: Result<Body, ToolError>)
    ensures r.Success? <==>
              !IsBlank(config) && parse(config).Success?
              && ValidateDimension(width, "width").Success? && ValidateDimension(height, "height").Success?
    ensures IsBlank(config) ==> r == Failure(MissingInput("config"))
    ensures !IsBlank(config) && parse(config).Failure? ==> r == Failure(InvalidJson("config", parse(config).error))
    ensures !IsBlank(config) && parse(config).Success? && ValidateDimension(width, "width").Failure? ==>
              r == Failure(ValidateDimension(width, "width").error)
    ensures !IsBlank(config) && parse(config).Success? && ValidateDimension(width, "width").Success?
            && ValidateDimension(height, "height").Failure? ==>
              r == Failure(ValidateDimension(height, "height").error)
    ensures r.Success? ==>
              && r.value.Keys <= {ChartKey, WidthKey, HeightKey, BackgroundKey, FormatKey}
              && ChartKey in r.value && r.value[ChartKey] == JsonValue(parse(config).value)
              && FormatKey in r.value && r.value[FormatKey] == TextValue(NormalizeFormat(format))
              && TextSent(r.value, BackgroundKey, background)
              && DimensionSent(r.value, WidthKey, width)
              && DimensionSent(r.value, HeightKey, height)
  {
    var chart :- LoadJson(config, "config", parse);
    var w :- ValidateDimension(width, "width");
    var h :- ValidateDimension(height, "height");
    var body := ChartFields(chart, w, h, background, format);
    SentDimension(body, WidthKey, width, "width");
    SentDimension(body, HeightKey, height, "height");
    Success(body)
  }

  /** The body of `render_graphviz` and `render_mermaid`: the definition is sent
      as given (not stripped) under `key`, the option stripped under `optionKey`. */
  function DiagramBody(definition: string, what: string, key: Field, optionKey: Field, option: string,
                       format: string): (r: Result<Body, ToolError>)
    requires key != optionKey && key != FormatKey && optionKey != FormatKey
    ensures r.Success? <==> !IsBlank(definition)
    ensures r.Failure? ==> r.error == MissingInput(what)
    ensures r.Success? ==>
              && r.value.Keys <= {key, optionKey, FormatKey}
              && key in r.value && r.value[key] == TextValue(definition)
              && TextSent(r.value, optionKey, option)
              && FormatKey in r.value && r.value[FormatKey] == TextValue(NormalizeFormat(format))
  {
    if IsBlank(definition) then Failure(MissingInput(what))
    else
      var body := WithText(map[key := TextValue(definition)], optionKey, option);
      Success(body[FormatKey := TextValue(NormalizeFormat(format))])
  }

  /** The QR query assembled from validated parts: text, size, level. */
  function QrFields(text: string, s: Option<int>, correction: string): (q: Body)
    ensures q.Keys <= {TextKey, SizeKey, EcLevelKey}
    ensures TextKey in q && q[TextKey] == TextValue(text)
    ensures (SizeKey in q <==> s.Some?) && (s.Some? ==> q[SizeKey] == IntValue(s.value))
    ensures EcLevelKey in q <==> !IsBlank(correction)
    ensures EcLevelKey in q ==> q[EcLevelKey] == TextValue(Upper(Trim(correction)))
  {
    var sized := WithInt(map[TextKey := TextValue(text)], SizeKey, s);
    if IsBlank(correction) then sized else sized[EcLevelKey := TextValue(Upper(Trim(correction)))]
  }

  /** The query of `render_qrcode`: stripped text, optional size, upper-cased
      error-correction level; the size is only validated when given. */
  function QrParams(text: string, size: string, correction: string): (r: Result<Body, ToolError>)
    ensures r.Success? <==> !IsBlank(text) && ValidateDimension(size, "size").Success?
    ensures IsBlank(text) ==> r == Failure(MissingInput("text"))
    ensures !IsBlank(text) && ValidateDimension(size, "size").Failure? ==>
              r == Failure(ValidateDimension(size, "size").error)
    ensures r.Success? ==>
              && r.value.Keys <= {TextKey, SizeKey, EcLevelKey}
              && TextKey in r.value && r.value[TextKey] == TextValue(Trim(text))
              && DimensionSent(r.value, SizeKey, size)
              && (EcLevelKey in r.value <==> !IsBlank(correction))
              && (EcLevelKey in r.value ==> r.value[EcLevelKey] == TextValue(Upper(Trim(correction))))
  {
    if IsBlank(text) then Failure(MissingInput("text"))
    else
      var s :- if IsBlank(size) then Success(None) else ValidateDimension(size, "size");
      var query := QrFields(Trim(text), s, correction);
      SentDimension(query, SizeKey, size, "size");
      Success(query)
  }

  /** The word cloud body assembled from validated parts: weights and format
      first, then width and height. */
  function WordCloudFields(weights: Json, format: string, w: Option<int>, h: Option<int>): (b: Body)
    ensures b.Keys <= {WeightsKey, FormatKey, WidthKey, HeightKey}
    ensures WeightsKey in b && b[WeightsKey] == JsonValue(weights)
    ensures FormatKey in b && b[FormatKey] == TextValue(NormalizeFormat(format))
    ensures (WidthKey in b <==> w.Some?) && (w.Some? ==> b[WidthKey] == IntValue(w.value))
    ensures (HeightKey in b <==> h.Some?) && (h.Some? ==> b[HeightKey] == IntValue(h.value))
  {
    var body := map[WeightsKey := JsonValue(weights), FormatKey := TextValue(NormalizeFormat(format))];
    WithInt(WithInt(body, WidthKey, w), HeightKey, h)
  }

  /** The body of `render_wordcloud`: the blank check comes before JSON
      parsing, and the dimensions are validated after the words. */
  function WordCloudBody(words: string, format: string, width: string, height: string,
                         parse: JsonParser): (r: Result<Body, ToolError>)
    ensures r.Success? <==>
              !IsBlank(words) && parse(words).Success?
              && ValidateDimension(width, "width").Success? && ValidateDimension(height, "height").Success?
    ensures IsBlank(words) ==> r == Failure(MissingInput("words JSON"))
    ensures !IsBlank(words) && parse(words).Failure? ==> r == Failure(InvalidJson("words", parse(words).error))
    ensures !IsBlank(words) && parse(words).Success? && ValidateDimension(width, "width").Failure? ==>
              r == Failure(ValidateDimension(width, "width").error)
    ensures !IsBlank(words) && parse(words).Success? && ValidateDimension(width, "width").Success?
            && ValidateDimension(height, "height").Failure? ==>
              r == Failure(ValidateDimension(height, "height").error)
    ensures r.Success? ==>
              && r.value.Keys <= {WeightsKey, FormatKey, WidthKey, HeightKey}
              && WeightsKey in r.value && r.value[WeightsKey] == JsonValue(parse(words).value)
              && FormatKey in r.value && r.value[FormatKey] == TextValue(NormalizeFormat(format))
              && DimensionSent(r.value, WidthKey, width)
              && DimensionSent(r.value, HeightKey, height)
  {
    if IsBlank(words) then Failure(MissingInput("words JSON"))
    else
      var weights :- LoadJson(words, "words", parse);
      var w :- ValidateDimension(width, "width");
      var h :- ValidateDimension(height, "height");
      var body := WordCloudFields(weights, format, w, h);
      SentDimension(body, WidthKey, width, "width");
      SentDimension(body, HeightKey, height, "height");
      Success(body)
  }

  /** The validated body or query of any request. */
  function RequestBody(req: Request, parse: JsonParser): Result<Body, ToolError> {
    match req
    case Chart(config, width, height, format, background, _, _) =>
      ChartBody(config, width, height, format, background, parse)
    case Graphviz(graph, layout, format, _, _) =>
      DiagramBody(graph, "graph definition", GraphKey, LayoutKey, layout, format)
    case Mermaid(mermaid, theme, format, _, _) =>
      DiagramBody(mermaid, "mermaid definition", ChartKey, ThemeKey, theme, format)
    case QrCode(text, size, correction, _, _) =>
      QrParams(text, size, correction)
    case WordCloud(words, format, width, height, _, _) =>
      WordCloudBody(words, format, width, height, parse)
  }

  /** Validation of one request into the call to make: the QR tool issues a
      GET, the others a POST; the MIME type follows the tool's allowlist. */
  function BuildJob(req: Request, parse: JsonParser): (r: Result<Plan, ToolError>)
    ensures r.Success? <==> RequestBody(req, parse).Success?
    ensures r.Failure? ==> r.error == RequestBody(req, parse).error
    ensures r.Success? ==> r.value.job.body == RequestBody(req, parse).value
    ensures r.Success? ==> (r.value.job.verb == Get <==> req.QrCode?)
    ensures r.Success? ==> r.value.job.endpoint == Endpoint(req) && r.value.job.expected == Expected(req)
    ensures r.Success? ==> r.value.mime == MimeFor(FormatOf(req), Formats(req))
    ensures r.Success? ==> ("image/" <= r.value.mime <==> FormatOf(req) in Formats(req))
  {
    var body :- RequestBody(req, parse);
    var verb := if req.QrCode? then Get else Post;
    Success(Plan(RenderJob(verb, Endpoint(req), body, Expected(req)), MimeFor(FormatOf(req), Formats(req))))
  }

  /** The report for the reply to an issued call: a status or transport
      failure is relayed as an error, and only a delivery reaches the store. */
  function ReplyReport(reply: RemoteReply, plan: Plan, req: Request, store: Store): (report: Report)
    ensures report.Failed? <==> !reply.Delivered?
    ensures reply.HttpStatus? ==> report == Failed(RemoteStatus(reply.code, plan.job.expected))
    ensures reply.TransportFailure? ==> report == Failed(RemoteTransport(reply.detail))
    ensures reply.Delivered? ==>
              report == FormatBinaryResponse(reply.payload, plan.mime, Summary(req), Prefix(req),
                                             req.saveAs, req.includeBase64, store)
  {
    match reply
    case HttpStatus(code) => Failed(RemoteStatus(code, plan.job.expected))
    case TransportFailure(detail) => Failed(RemoteTransport(detail))
    case Delivered(payload) =>
      FormatBinaryResponse(payload, plan.mime, Summary(req), Prefix(req), req.saveAs, req.includeBase64, store)
  }

  /** One tool invocation: validation failures are reported without any remote
      call; otherwise the call is made once and its reply decides the report. */
  function Invoke(req: Request, env: Env): (inv: Invocation)
    ensures inv.issued.None? <==> BuildJob(req, env.parse).Failure?
    ensures inv.issued.None? ==> inv.report == Failed(BuildJob(req, env.parse).error)
    ensures inv.issued.Some? ==> inv.issued.value == BuildJob(req, env.parse).value.job
    ensures inv.issued.Some? && env.remote(inv.issued.value).HttpStatus? ==>
              inv.report == Failed(RemoteStatus(env.remote(inv.issued.value).code, Expected(req)))
    ensures inv.issued.Some? && env.remote(inv.issued.value).TransportFailure? ==>
              inv.report == Failed(RemoteTransport(env.remote(inv.issued.value).detail))
    ensures inv.issued.Some? && env.remote(inv.issued.value).Delivered? ==>
              inv.report == FormatBinaryResponse(env.remote(inv.issued.value).payload,
                                                 BuildJob(req, env.parse).value.mime, Summary(req), Prefix(req),
                                                 req.saveAs, req.includeBase64, env.store)
    ensures inv.report.EmptyPayload? ==> inv.report.summary == Summary(req)
    ensures inv.report.Saved? ==>
              inv.issued.Some? && env.remote(inv.issued.value) == Delivered(inv.report.content)
              && inv.report.mime == BuildJob(req, env.parse).value.mime
  {
    match BuildJob(req, env.parse)
    case Failure(e) => Invocation(Failed(e), None)
    case Success(plan) => Invocation(ReplyReport(env.remote(plan.job), plan, req, env.store), Some(plan.job))
  }
}

=== FILE: validation.dfy ===
/** The input validator: coercion of the tools' untyped string parameters
    into typed values or a user-facing failure. */
module Validation {
  import opened Wrappers
  import opened Text
  import opened Numbers
  import opened Errors

  /** A parsed JSON document. Only carried from the parser into request bodies,
      never inspected; numbers are shown as integers. */
  datatype Json =
    | JNull
    | JBool(b: bool)
    | JNumber(n: int)
    | JString(s: string)
    | JArray(items: seq<Json>)
    | JObject(fields: seq<(string, Json)>)

  /** The JSON parser (`json.loads`): a text either parses to a document or
      fails with a diagnostic. Supplied by the caller. */
  type JsonParser = string -> Result<Json, string>

  /** `_validate_dimension`: blank means "unset"; otherwise the stripped text
      must be an integer, and that integer must be positive. */
  function ValidateDimension(value: string, field: string): (r: Result<Option<int>, ToolError>)
    ensures IsBlank(value) ==> r == Success(None)
    ensures !IsBlank(value) && ParseInt(Trim(value)).None? ==> r == Failure(InvalidNumber(field))
    ensures !IsBlank(value) && ParseInt(Trim(value)).Some? ==>
              var n := ParseInt(Trim(value)).value;
              if n <= 0 then r == Failure(NonPositiveNumber(field)) else r == Success(Some(n))
    ensures r.Success? && r.value.Some? ==> r.value.value > 0
  {
    if IsBlank(value) then Success(None)
    else
      match ParseInt(Trim(value))
      case None => Failure(InvalidNumber(field))
      case Some(n) => if n <= 0 then Failure(NonPositiveNumber(field)) else Success(Some(n))
  }

  /** The shape of every outcome: a value exactly for non-blank input, read
      from the stripped text, and only the two number errors. */
  lemma DimensionOutcome(value: string, field: string)
    ensures var r := ValidateDimension(value, field);
            && (r.Success? ==> (r.value.Some? <==> !IsBlank(value)))
            && (r.Success? && r.value.Some? ==> ParseInt(Trim(value)) == Some(r.value.value))
            && (r.Failure? ==> r.error == InvalidNumber(field) || r.error == NonPositiveNumber(field))
  {
  }

  /** A positive integer of at most `MaxStrDigits` digits, written as `str()`
      writes it and padded with any whitespace, is accepted as exactly that integer. */
  lemma PositiveDimensionAccepted(n: int, pre: string, post: string, field: string)
    requires n > 0 && |Decimal(n)| <= MaxStrDigits
    requires AllSpace(pre) && AllSpace(post)
    ensures ValidateDimension(pre + IntToString(n) + post, field) == Success(Some(n))
  {
    DecimalTrims(n, pre, post);
  }

  /** A non-positive integer, however padded, is rejected as not positive,
      as long as `int()` accepts its length. */
  lemma NonPositiveDimensionRejected(n: int, pre: string, post: string, field: string)
    requires n <= 0 && |Decimal(-n)| <= MaxStrDigits
    requires AllSpace(pre) && AllSpace(post)
    ensures ValidateDimension(pre + IntToString(n) + post, field) == Failure(NonPositiveNumber(field))
  {
    DecimalTrims(n, pre, post);
  }

  lemma DecimalTrims(n: int, pre: string, post: string)
    requires |Decimal(Abs(n))| <= MaxStrDigits
    requires AllSpace(pre) && AllSpace(post)
    ensures !IsBlank(pre + IntToString(n) + post)
    ensures Trim(pre + IntToString(n) + post) == IntToString(n)
    ensures ParseInt(Trim(pre + IntToString(n) + post)) == Some(n)
  {
    var d := IntToString(n);
    SpaceIsNotPrintable(d[0]);
    SpaceIsNotPrintable(d[|d| - 1]);
    TrimPadded(pre, d, post);
    ParseIntRoundTrip(n);
  }

  /** A dimension written with more digits than `int()` converts is reported
      as not an integer, however small its value. */
  lemma OverlongDimensionRejected(digits: string, field: string)
    requires AllDigits(digits) && |digits| > MaxStrDigits
    ensures ValidateDimension(digits, field) == Failure(InvalidNumber(field))
  {
    SpaceIsNotPrintable(digits[0]);
    SpaceIsNotPrintable(digits[|digits| - 1]);
    TrimPadded("", digits, "");
    assert "" + digits + "" == digits;
    TooManyDigitsRejected(digits);
  }

  /** `_load_json`: a blank text is reported missing without consulting the
      parser; otherwise the parser decides, and its diagnostic is kept. */
  function LoadJson(raw: string, field: string, parse: JsonParser): (r: Result<Json, ToolError>)
    ensures IsBlank(raw) ==> r == Failure(MissingInput(field))
    ensures !IsBlank(raw) ==> (r.Success? <==> parse(raw).Success?)
    ensures !IsBlank(raw) && parse(raw).Success? ==> r.value == parse(raw).value
    ensures !IsBlank(raw) && parse(raw).Failure? ==> r.error == InvalidJson(field, parse(raw).error)
  {
    if IsBlank(raw) then Failure(MissingInput(field))
    else
      match parse(raw)
      case Success(doc) => Success(doc)
      case Failure(diagnostic) => Failure(InvalidJson(field, diagnostic))
  }

  /** On blank input the outcome does not depend on the parser at all. */
  lemma BlankJsonIgnoresParser(raw: string, field: string, p1: JsonParser, p2: JsonParser)
    requires IsBlank(raw)
    ensures LoadJson(raw, field, p1) == LoadJson(raw, field, p2) == Failure(MissingInput(field))
  {
  }
}

=== FILE: wrappers.dfy ===
/** Failure-compatible carriers used throughout the model: Option for "maybe
    absent" values (Python's None) and Result for operations that either
    produce a value or a user-facing failure. */
module Wrappers {

  datatype Option<+T> = None | Some(value: T) {

    /** The carried value, or `default` when absent (Python's `x or default`). */
    function GetOr(default: T): T {
      match this
      case Some(v) => v
      case None => default
    }
  }

  datatype Result<+R, +E> = Success(value: R) | Failure(error: E) {

    predicate IsFailure() {
      Failure?
    }

    function PropagateFailure<U>(): Result<U, E>
      requires Failure?
    {
      Failure(error)
    }

    function Extract(): R
      requires Success?
    {
      value
    }
  }
}

/** Ordered "first success wins" search. Both the choice of an output
    directory and the lookup of a served file try an ordered list of
    candidate roots and stop at the first one that works. */
module Attempts {
  import opened Wrappers

  /** The first non-None answer of `f` along `xs`, trying candidates in order. */
  function FirstSome<A, B>(xs: seq<A>, f: A -> Option<B>): (r: Option<B>)
    ensures r.None? <==> forall i :: 0 <= i < |xs| ==> f(xs[i]).None?
    ensures r.Some? ==>
      exists i :: 0 <= i < |xs| && f(xs[i]) == r && forall j :: 0 <= j < i ==> f(xs[j]).None?
  {
    if xs == [] then None
    else if f(xs[0]).Some? then f(xs[0])
    else
      var rest := FirstSome(xs[1..], f);
      assert forall i :: 0 < i < |xs| ==> xs[1..][i - 1] == xs[i];
      rest
  }
}
